=== FILE: README.md ===
# Migration-based optimiser for the 0-1 knapsack problem, in Dafny

This project models `mbo_core.py`, a migration-based optimiser (MBO) for the 0-1 knapsack
problem. A candidate solution is a bit vector over the items, modelled as `seq<bool>`. An
`Instance` holds the item values, the item weights and the capacity.

Each generation of `main_knapsack_mbo` does the following:
- measures population diversity as the mean pairwise Hamming distance;
- derives an adaptive mutation rate from it;
- scores every individual and tracks the best one;
- refreshes a quarter of the population after 20 stagnant generations;
- picks parents by 5-way tournament;
- crosses the two halves of the parents pairwise (migration);
- mutates, repairs and locally improves every child, then repairs it once more;
- keeps the pop_size // 10 fittest individuals as elite;
- selects the next population from elite plus offspring by fitness.

The files:

| file | module | content |
|---|---|---|
| `results.dfy` | `Results` | `Result`/`Option` and the errors the Python code raises |
| `knapsack.dfy` | `Knapsack` | value, weight, feasibility and `fitness` |
| `sorting.dfy` | `Sorting` | one insertion sort over indices with a strict comparator, proved to sort and permute |
| `repair.dfy` | `RepairOperator` | `repair`: drops selected items by ascending value/weight ratio until the solution fits |
| `local_search.dfy` | `LocalSearchImprover` | `local_search`: one greedy left-to-right pass adding items that fit and add value |
| `migration.dfy` | `Migration` | `split_population`, `single_point_crossover`, `migration_phase` |
| `mutation.dfy` | `Mutation` | `mutate` and `mutate_and_search` |
| `selection.dfy` | `Selection` | `select_next_generation` (the stable descending sort) and `tournament_selection` |
| `diversity.dfy` | `DiversityTracker` | `calculate_diversity` as a recursive definition and as the source's double loop |
| `engine.dfy` | `Engine` | one generation (`Generation`) and the loop of `main_knapsack_mbo` (`MainKnapsackMbo`) |

Randomness is lifted into parameters. The initial population is an argument. Each generation
receives a `Draws` value holding four kinds of draw:
- the solutions a stagnation refresh injects;
- one index sample per tournament, of 5 distinct indices;
- one cut point in [1, n-1] per crossover;
- one coin in [0, 1) per mutated bit (a bit flips when its coin is below the rate).

Every Python exception a run can reach becomes a `Failure`:
- `ParentsDifferInLength`: crossover parents of unequal length;
- `EmptyCutRange`: `randint(1, n-1)` with n < 2;
- `SampleLargerThanPopulation`: `random.sample` with fewer than 5 individuals;
- `EmptySequence`: `max()` of an empty fitness list.

The model follows the code where it behaves unexpectedly:
- A population of 1 to 4 individuals always fails in the first tournament.
- Solutions of fewer than two items always fail in crossover once there is a pair to cross,
  because `randint(1, n - 1)` has an empty range for n < 2.
- `population[-0:] = ...` empties the population when pop_size < 4. A run started from an
  initial population of 1 to 3 individuals fails in its first tournament before any refresh;
  one started from 0 individuals fails earlier, in `max()`. A
  generation handed 1 to 3 individuals at the stagnation limit, none fitter than the best so
  far, refreshes them away and succeeds with an empty population; the generation after it
  fails in `max()` (`Engine.Generation`).
- After a refresh, the tournament and elitism still rank the refreshed population by the
  fitness values scored before the refresh.
- Refreshed individuals are not repaired.
- The adaptive mutation rate is not clamped. Diversity above 1 pushes it below the minimum, even
  negative, and then no bit flips (`AdaptiveRateBand`, `MutateExtremes`).
- `diversity_threshold` is never read.

Preconditions the model requires of its callers:
- equal numbers of values and weights;
- solutions of the item count;
- positive weights, because the ratio v / w in repair divides by them.

## Model

| member | source | states |
|---|---|---|
| Knapsack.FitnessAll | mbo_core.py:274 | one fitness per individual, in population order; a non-zero score certifies that its individual is within capacity and scores its full value |
| Knapsack.FitnessCharacterization | mbo_core.py:43-48 | a feasible solution scores its total value, and a non-zero fitness means the solution is feasible and scores its total value; with non-negative values the fitness lies between 0 and the value |
| Knapsack.EmptySelectionFeasible | mbo_core.py:43-48 | the empty selection weighs nothing, is feasible for a non-negative capacity and scores 0 |
| Knapsack.FitnessExamples | test_mbo_core.py:15-27 | on values [60,100,120], weights [10,20,30] and capacity 50: [1,0,1] scores 180 and the overweight [1,1,1] scores 0 |
| RepairOperator.SelectedItems | mbo_core.py:70 | the indices of exactly the selected items, each once |
| RepairOperator.RatioOrderTotal | mbo_core.py:70-72 | ordering (ratio, index) pairs by cross-multiplied ratio, then index, is a strict total order on item indices |
| RepairOperator.RemovalOrder | mbo_core.py:70-72 | the selected items, each once, sorted by ascending value/weight ratio with ties by index |
| RepairOperator.Strip | mbo_core.py:75-79 | the removal loop keeps the item count and only clears bits |
| RepairOperator.Repair | mbo_core.py:63-80 | the result has the item count and only clears bits; a solution within capacity comes back unchanged |
| RepairOperator.RepairSpec | mbo_core.py:63-80 | with capacity >= 0 the result is feasible; an overweight input loses a prefix of its ratio order and no more: every dropped item ranks before every kept one, and putting back the last dropped item would overflow again |
| RepairOperator.RepairIdempotent | mbo_core.py:66-67 | repairing a repaired solution changes nothing |
| RepairOperator.RepairExample | test_mbo_core.py:29-48 | [1,1,1] is repaired to [1,1,0] by dropping the lowest-ratio item; the feasible [1,0,1] is kept |
| LocalSearchImprover.Improve | mbo_core.py:173-182 | the pass from position i returns a solution of the item count and keeps every selected bit |
| LocalSearchImprover.LocalSearch | mbo_core.py:169-183 | the result has the item count and keeps every selected bit |
| LocalSearchImprover.ImproveSpec | mbo_core.py:173-182 | the pass from position i leaves earlier bits alone, never lowers the value, stays within capacity when started within it, and with non-negative weights leaves no later unselected item of positive value that would still fit |
| LocalSearchImprover.LocalSearchSpec | mbo_core.py:169-183 | value never drops; a feasible input stays feasible and its fitness does not drop; with non-negative weights no unselected item of positive value still fits afterwards |
| Migration.Split | mbo_core.py:92-93 | the halves concatenate to the population; the first has floor(n/2) members and the second the same number or one more |
| Migration.Crossover | mbo_core.py:106-111 | fails with the length error on unequal parents and with the empty-range error below two bits; otherwise each child takes one parent's head before the cut and the other's tail |
| Migration.CrossoverSpec | mbo_core.py:109-110 | children keep the parents' length and first and last genes; at every position the pair of child bits is the pair of parent bits; crossing the children at the same cut gives back the parents |
| Migration.CrossPairs | mbo_core.py:127-131 | succeeds exactly when every pair from k on can be crossed, otherwise fails with the empty-range error when lengths agree; two children per pair, children 2(i-k) and 2(i-k)+1 being the crossover of pair i |
| Migration.Migrate | mbo_core.py:123-137 | succeeds exactly when every pair (i, n/2 + i) can be crossed, otherwise fails with the empty-range error when lengths agree; keeps the population size and appends the odd last individual unchanged |
| Migration.MigratePairs | mbo_core.py:127-131 | children 2i and 2i+1 are the crossover of individuals i and n/2 + i at the i-th cut |
| Migration.MigrateSucceeds | mbo_core.py:106-111 | equal-length solutions of at least two items always migrate |
| Migration.MigrateNeedsTwoBits | mbo_core.py:108 | solutions of fewer than two items never migrate once a pair exists: the cut range is empty |
| Migration.MigrateLengths | mbo_core.py:123-137 | every migrated individual keeps the common solution length |
| Mutation.Mutate | mbo_core.py:150-154 | keeps the length; a bit changes exactly when its coin falls below the rate |
| Mutation.MutateDistance | mbo_core.py:150-154 | the mutant's Hamming distance from its parent is the number of coins below the rate |
| Mutation.MutateInvolution | mbo_core.py:153 | mutating twice with the same coins restores the solution |
| Mutation.MutateExtremes | mbo_core.py:152 | a rate <= 0 flips nothing; a rate >= 1 flips every bit |
| Mutation.Offspring | mbo_core.py:201-203 | the mutated, repaired, improved child fits the instance and is feasible for a non-negative capacity |
| Mutation.MutateAndSearch | mbo_core.py:199-205 | one child per individual; for a non-negative capacity every child is feasible, so the repair pass after it changes nothing |
| Selection.FitnessOrderTotal | mbo_core.py:222 | descending fitness with ties by index is a strict total order on indices |
| Selection.Ranking | mbo_core.py:219-222 | a permutation of the indices with the fitter first and equal fitness in original order: the stable descending sort |
| Selection.TopIndices | mbo_core.py:219-224 | min(k, n) distinct indices in ranking order; no index left out is fitter than, or equally fit and earlier than, one taken |
| Selection.SelectNextGeneration | mbo_core.py:219-225 | min(pop_size, n) members of the population, n cut to the shorter of population and fitness list as zip does; they sit at distinct positions, in the stable descending order of fitness, and no position left out ranks before one taken |
| Selection.SelectNextByFitness | mbo_core.py:219-225 | with the population's own fitness, the selection is in non-increasing fitness order and no left-out individual is fitter than a selected one |
| Selection.FirstMax | mbo_core.py:275-280 | the first position of the largest key |
| Selection.Winner | mbo_core.py:243 | the winner is drawn from the sample and no sampled individual is fitter; it is the first sampled holder of the largest fitness |
| Selection.Tournament | mbo_core.py:240-245 | succeeds exactly when the population is empty or has at least the tournament size, failing with the sample error otherwise; one winner per individual, each a member with no fitter individual in its sample |
| DiversityTracker.Hamming | mbo_core.py:235 | the distance over zipped positions is at most either length |
| DiversityTracker.HammingSymmetric | mbo_core.py:235 | the distance is symmetric |
| DiversityTracker.HammingZeroIff | mbo_core.py:235 | equal-length solutions are at distance 0 exactly when they are equal |
| DiversityTracker.PairCountFormula | mbo_core.py:236 | the number of unordered pairs of n individuals is n(n-1)/2 |
| DiversityTracker.Diversity | mbo_core.py:229-236 | non-negative; from two individuals on, times the pair count it gives the total pairwise distance |
| DiversityTracker.CalculateDiversity | mbo_core.py:229-236 | the double loop computes the pairwise mean |
| DiversityTracker.PairMeanZero | mbo_core.py:236 | the mean is 0 exactly when there are fewer than two individuals or no distance at all |
| DiversityTracker.DiversityZeroIff | mbo_core.py:229-236 | for equal-length solutions diversity is 0 exactly when all individuals are equal |
| DiversityTracker.DiversityMonotone | mbo_core.py:229-236 | pairwise distances that grow never lower diversity, and any strict growth raises it |
| Engine.AdaptiveRateBand | mbo_core.py:271 | for a mutation_rate below 0.1 and diversity in [0, 1] the rate lies between mutation_rate and 0.1; diversity above 1 pushes it below mutation_rate |
| Engine.Refresh | mbo_core.py:293-294 | for 0 < k <= n the last k individuals are replaced and the rest kept; k = 0 empties the population |
| Engine.TrackBest | mbo_core.py:275-283 | the best fitness never drops and bounds every fitness; an improvement records the first individual of the population holding the largest fitness, resets stagnation and is the only way to reset it; otherwise best is kept and stagnation grows by one |
| Engine.RefreshShaped | mbo_core.py:291-295 | a refresh keeps pop_size individuals of the item count, and empties the population exactly when pop_size < 4 |
| Engine.RepairPass | mbo_core.py:306 | every individual is repaired in place; for a non-negative capacity all are feasible |
| Engine.Breed | mbo_core.py:298-306 | offspring keep the population size and item count and are feasible for a non-negative capacity |
| Engine.BreedOutcome | mbo_core.py:298-299 | an empty population breeds no offspring; 1 to 4 individuals fail in the tournament sample; from 5 on, breeding succeeds exactly when there are at least two items, and otherwise fails on the empty cut range |
| Engine.Survivors | mbo_core.py:309-321 | at most pop_size fitting individuals, exactly pop_size when offspring suffice, none from an empty population and offspring; their order and origin are stated by `SurvivorsKeepFittest` |
| Engine.SurvivorsKeepFittest | mbo_core.py:309-321 | survivors come from the old population or the offspring, in non-increasing fitness order, and an offspring left out is no fitter than any survivor |
| Engine.PoolSelection | mbo_core.py:316-321 | selecting from elite plus offspring gives min(pop_size, pool size) fitting members of the pool in non-increasing fitness order, none fitter left out |
| Engine.ElitismKeepsBest | mbo_core.py:309-321 | with an elite of at least one, the first survivor is at least as fit as every individual of the old population |
| Engine.NextPopulation | mbo_core.py:298-321 | the next population keeps its shape; on success it is the fitness truncation of the population and its offspring (`FittestOf`: non-increasing fitness, drawn from the two, no offspring left out fitter than a member), and with an elite and the population's own fitness values it is headed by one at least as fit as every old individual; an empty population stays empty; it fails in the tournament for 1 to 4 individuals; from 5 on it has pop_size individuals with two or more items, and otherwise fails on the empty cut range |
| Engine.RecordsExtend | mbo_core.py:278-285 | appending the new best fitness keeps the history non-decreasing, bounded by and ending at the best fitness |
| Engine.Generation | mbo_core.py:265-321 | the fitness history grows by the new best and the diversity history by the population's diversity; on success the next population is the fitness truncation of the refreshed (or unrefreshed) population and the offspring a successful breeding of it gives, ranked by the scored fitness values and bred at the adaptive rate of the scored population (`BredFrom`, `Refreshed`); it is in non-increasing fitness order and, with an elite and no refresh, headed by one at least as fit as every individual of the generation; the new best never drops and bounds the fitness of every scored individual; an improvement records the first individual holding it, otherwise the best solution is kept; stagnation resets on improvement or at the limit and otherwise grows by one; the best solution is recorded exactly when its fitness is positive and scores it; an empty population fails in max(), a small one in the tournament unless a refresh empties it, a population of fewer than two items in crossover |
| Engine.TrackBestOf | mbo_core.py:274-283 | the tracked best never drops, bounds the fitness of every individual, is recorded at the first individual holding it on an improvement and otherwise keeps the best solution |
| Engine.Advance | mbo_core.py:265-321 | one loop iteration appends the population it started from to the trajectory; on success the next population is bred from it or from its refresh and truncated by fitness (`Stepped`), the best solution and the new fitness history entry stay tied to the scored populations (`BestSoFar`), the run invariant holds and the next population is in non-increasing fitness order; it fails exactly as the generation does |
| Engine.TrajectoryExtend | mbo_core.py:265-285 | a generation that records its population's diversity and does not lower the best fitness extends the run's trajectory of populations by that population |
| Engine.BestSoFarExtend | mbo_core.py:274-285 | scoring one more population and tracking the best over it keeps each fitness history entry bounding its population and the best solution an individual of a scored population |
| Engine.RunOutcome | mbo_core.py:250-283 | a recorded best solution is feasible and worth the best fitness, and once a generation has run the best fitness bounds every repaired initial individual |
| Engine.Start | mbo_core.py:250-263 | the repaired initial population with no best, fitness 0 and empty histories; feasible for a non-negative capacity |
| Engine.Evolve | mbo_core.py:250-321 | the generation loop from the repaired initial population: one history entry per draw; a sequence of fitting populations starting from the repaired initial one, with entry g of the diversity history its diversity, entry g of the fitness history bounding it, the best fitness bounding every individual and the best solution one of its individuals; the failures of the first generation for pop_size below 5 or fewer than two items |
| Engine.MainKnapsackMbo | mbo_core.py:247-331 | on success one history entry per generation, non-decreasing, bounded by and ending at the best fitness; the best solution is feasible and worth it, present exactly when positive; the best fitness bounds every repaired initial individual once a generation has run; the ghost pops is a sequence of fitting populations starting from the repaired initial one, with diversity history entry g the diversity of population g, fitness history entry g bounding every individual of population g, the best fitness bounding every individual ever scored, the best solution one of them, and every bred population in non-increasing fitness order; no generations give no solution; pop_size below 5 fails in the first generation; from 5 on a run succeeds with two or more items and, given a generation, fails on the empty cut range with fewer |

## Left out

- Printing: the `verbose` output is left out, and so is its crash. With `verbose` and no positive fitness ever seen, line 328 zips over `best_solution = None`; with zero generations, line 327 reads an unbound `diversity`. The model is the `verbose=False` run.
- Random number generation: `generate_random_solution`, `initialize_population`, `random.randint`, `random.random` and `random.sample` are not modelled as generators. Their outputs are parameters: the initial population and `Draws`. `ValidDraws` states the counts and ranges the generation consumes: newcomer, sample, cut and coin counts, samples of distinct in-range indices, cuts in [1, n-1]. The coins are not constrained to [0, 1), since no engine contract depends on it; `MutateExtremes` alone requires them in [0, 1).
- Floating point: diversity, the adaptive rate, the mutation coins and the value/weight ratios are exact reals or cross-multiplied integers. Rounding and ties that only appear under floating-point division are not modelled.
- Mismatched lengths: solutions, values and weights are required to have one length. `zip` truncation matters only for inputs the optimiser never builds; the Hamming distance and `SelectNextGeneration` keep `zip`'s shorter-length semantics.
- Non-positive weights: repair divides by the weight of selected items, so the model requires positive weights of every item.
- Engine.Evolve: the trajectory's populations are not linked step to step in this contract. Each step is stated by `Advance` (`Stepped`) and `Generation` (`BredFrom`); carrying it through the loop puts the full definition of breeding into every loop obligation, beyond the resource bound the proofs are kept within.
- Engine.MainKnapsackMbo: for the same reason, the ghost populations are not stated to follow one from the other; only their start, diversity, fitness bounds, best solution and order are.
- Engine.Generation: for 1 to 4 individuals the failure and its error are stated only when the stagnation counter stays below 20. At the limit the contract states only that a success must come from a refresh that emptied 1 to 3 individuals, and that this success happens when no individual improves on the best.
- RepairOperator.Repair: feasibility of the result is stated only for a capacity >= 0. With a negative capacity the code clears every selected bit and still returns an infeasible solution.

=== FILE: diversity.dfy ===
/** The diversity tracker: mean pairwise Hamming distance of a population. */
module DiversityTracker {
  import opened Knapsack

  /** Number of positions, up to the shorter length, where the two solutions differ. */
  function Hamming(a: Solution, b: Solution): (d: nat)
    ensures d <= |a| && d <= |b|
  {
    if |a| == 0 || |b| == 0 then 0
    else (if a[0] != b[0] then 1 else 0) + Hamming(a[1..], b[1..])
  }

  lemma {:induction false} HammingSymmetric(a: Solution, b: Solution)
    ensures Hamming(a, b) == Hamming(b, a)
  {
    if |a| > 0 && |b| > 0 {
      HammingSymmetric(a[1..], b[1..]);
    }
  }

  /** Two solutions of the same length are at distance zero exactly when they are equal. */
  lemma {:induction false} HammingZeroIff(a: Solution, b: Solution)
    requires |a| == |b|
    ensures Hamming(a, b) == 0 <==> a == b
  {
    if |a| > 0 {
      HammingZeroIff(a[1..], b[1..]);
      assert a == [a[0]] + a[1..] && b == [b[0]] + b[1..];
    }
  }

  /** Sum of the distances from x to pop[j], pop[j+1], ... */
  function RowSum(x: Solution, pop: seq<Solution>, j: nat): nat
    decreases |pop| - j
  {
    if j >= |pop| then 0 else Hamming(x, pop[j]) + RowSum(x, pop, j + 1)
  }

  /** Sum of the distances of all pairs i < j with i from the given index on. */
  function PairsFrom(pop: seq<Solution>, i: nat): nat
    decreases |pop| - i
  {
    if i >= |pop| then 0 else RowSum(pop[i], pop, i + 1) + PairsFrom(pop, i + 1)
  }

  /** The number of unordered pairs among n individuals, counted pair by pair. */
  function PairCount(n: nat): nat {
    if n <= 1 then 0 else PairCount(n - 1) + (n - 1)
  }

  /** The pair count is the n(n-1)/2 the source divides by. */
  lemma {:induction false} PairCountFormula(n: nat)
    ensures 2 * PairCount(n) == n * (n - 1)
  {
    if n > 1 {
      PairCountFormula(n - 1);
      assert (n - 1) * (n - 2) + 2 * (n - 1) == n * (n - 1);
    }
  }

  /** From two individuals on there is at least one pair. */
  lemma PairCountPositive(n: nat)
    requires n >= 2
    ensures PairCount(n) >= 1
  {
  }

  /** Division by a positive count keeps order and sign, and multiplying back undoes it. */
  lemma DivideByPositive(x: real, y: real, c: real)
    requires c > 0.0
    ensures (x / c) * c == x
    ensures x >= 0.0 ==> x / c >= 0.0
    ensures x <= y ==> x / c <= y / c
    ensures x < y ==> x / c < y / c
  {
  }

  /** A quotient times its divisor is the dividend. */
  lemma ScaleBack(mean: real, total: real, count: real)
    requires count > 0.0 && mean == total / count
    ensures mean * count == total
  {
  }

  /** A total spread over the pairs of n individuals; 0 below two individuals. */
  function PairMean(total: nat, n: nat): real {
    if n <= 1 then 0.0 else (total as real) / (PairCount(n) as real)
  }

  /** The pair mean is never negative, and times the pair count it gives back the total. */
  lemma PairMeanLaw(total: nat, n: nat)
    ensures PairMean(total, n) >= 0.0
    ensures n >= 2 ==> PairMean(total, n) * (PairCount(n) as real) == total as real
  {
    if n >= 2 {
      PairCountPositive(n);
      DivideByPositive(total as real, 0.0, PairCount(n) as real);
      ScaleBack(PairMean(total, n), total as real, PairCount(n) as real);
    }
  }

  /** Mean Hamming distance over the n(n-1)/2 unordered pairs; 0 below two individuals. */
  function Diversity(pop: seq<Solution>): (d: real)
    ensures d >= 0.0
    ensures |pop| >= 2 ==> d * (PairCount(|pop|) as real) == PairsFrom(pop, 0) as real
  {
    PairMeanLaw(PairsFrom(pop, 0), |pop|);
    PairMean(PairsFrom(pop, 0), |pop|)
  }

  /** The nested loops of the source: i over the population, j over the later individuals. */
  method CalculateDiversity(pop: seq<Solution>) returns (d: real)
    ensures d == Diversity(pop)
  {
    if |pop| == 0 {
      return 0.0;
    }
    var n := |pop|;
    var total := 0;
    var i := 0;
    while i < n
      invariant 0 <= i <= n
      invariant total + PairsFrom(pop, i) == PairsFrom(pop, 0)
    {
      var j := i + 1;
      var row := 0;
      while j < n
        invariant i + 1 <= j <= n
        invariant row + RowSum(pop[i], pop, j) == RowSum(pop[i], pop, i + 1)
      {
        row := row + Hamming(pop[i], pop[j]);
        j := j + 1;
      }
      total := total + row;
      i := i + 1;
    }
    d := if n > 1 then (total as real) / (PairCount(n) as real) else 0.0;
  }

  lemma {:induction false} RowSumZeroIff(x: Solution, pop: seq<Solution>, j: nat)
    ensures RowSum(x, pop, j) == 0 <==> forall b :: j <= b < |pop| ==> Hamming(x, pop[b]) == 0
    decreases |pop| - j
  {
    if j < |pop| {
      RowSumZeroIff(x, pop, j + 1);
    }
  }

  lemma {:induction false} PairsFromZeroIff(pop: seq<Solution>, i: nat)
    ensures PairsFrom(pop, i) == 0 <==> forall a, b :: i <= a < b < |pop| ==> Hamming(pop[a], pop[b]) == 0
    decreases |pop| - i
  {
    if i < |pop| {
      RowSumZeroIff(pop[i], pop, i + 1);
      PairsFromZeroIff(pop, i + 1);
    }
  }

  /** The pair mean is zero exactly when the total is, or there are no pairs. */
  lemma PairMeanZero(total: nat, n: nat)
    ensures PairMean(total, n) == 0.0 <==> n <= 1 || total == 0
  {
    if n >= 2 {
      PairMeanLaw(total, n);
    }
  }

  /** With no pairs the summed distance is zero. */
  lemma PairsFromFew(pop: seq<Solution>)
    requires |pop| <= 1
    ensures PairsFrom(pop, 0) == 0
  {
    if |pop| == 1 {
      assert PairsFrom(pop, 1) == 0;
    }
  }

  /** For solutions of one length, all pairwise distances vanish exactly when all
      individuals are equal. */
  lemma PairwiseZeroIffEqual(pop: seq<Solution>)
    requires forall a, b :: 0 <= a < b < |pop| ==> |pop[a]| == |pop[b]|
    ensures (forall a, b :: 0 <= a < b < |pop| ==> Hamming(pop[a], pop[b]) == 0) <==>
            (forall a, b :: 0 <= a < |pop| && 0 <= b < |pop| ==> pop[a] == pop[b])
  {
    forall a, b | 0 <= a < b < |pop|
      ensures Hamming(pop[a], pop[b]) == 0 <==> pop[a] == pop[b]
    {
      HammingZeroIff(pop[a], pop[b]);
    }
    if forall a, b :: 0 <= a < b < |pop| ==> pop[a] == pop[b] {
      forall a, b | 0 <= a < |pop| && 0 <= b < |pop|
        ensures pop[a] == pop[b]
      {
        if b < a {
          assert pop[b] == pop[a];
        }
      }
    }
  }

  /** For solutions of one length, diversity is zero exactly when all individuals are equal. */
  lemma DiversityZeroIff(pop: seq<Solution>)
    requires forall a, b :: 0 <= a < b < |pop| ==> |pop[a]| == |pop[b]|
    ensures Diversity(pop) == 0.0 <==> forall a, b :: 0 <= a < |pop| && 0 <= b < |pop| ==> pop[a] == pop[b]
  {
    PairMeanZero(PairsFrom(pop, 0), |pop|);
    if |pop| <= 1 {
      PairsFromFew(pop);
    }
    PairsFromZeroIff(pop, 0);
    PairwiseZeroIffEqual(pop);
  }

  /** Pushing some pairs further apart, and none closer, strictly raises the summed distance. */
  lemma {:induction false} RowSumMonotone(x: Solution, y: Solution, pop: seq<Solution>, pop': seq<Solution>, j: nat)
    requires |pop| == |pop'|
    requires forall b :: j <= b < |pop| ==> Hamming(x, pop[b]) <= Hamming(y, pop'[b])
    ensures RowSum(x, pop, j) <= RowSum(y, pop', j)
    ensures (exists b :: j <= b < |pop| && Hamming(x, pop[b]) < Hamming(y, pop'[b])) ==> RowSum(x, pop, j) < RowSum(y, pop', j)
    decreases |pop| - j
  {
    if j < |pop| {
      RowSumMonotone(x, y, pop, pop', j + 1);
    }
  }

  lemma {:induction false} PairsFromMonotone(pop: seq<Solution>, pop': seq<Solution>, i: nat)
    requires |pop| == |pop'|
    requires forall a, b :: i <= a < b < |pop| ==> Hamming(pop[a], pop[b]) <= Hamming(pop'[a], pop'[b])
    ensures PairsFrom(pop, i) <= PairsFrom(pop', i)
    ensures (exists a, b :: i <= a < b < |pop| && Hamming(pop[a], pop[b]) < Hamming(pop'[a], pop'[b]))
            ==> PairsFrom(pop, i) < PairsFrom(pop', i)
    decreases |pop| - i
  {
    if i < |pop| {
      RowSumMonotone(pop[i], pop'[i], pop, pop', i + 1);
      PairsFromMonotone(pop, pop', i + 1);
    }
  }

  /** Between two populations of the same size, diversity grows with the pairwise distances:
      no pair closer and some pair further apart means strictly more diversity. */
  lemma DiversityMonotone(pop: seq<Solution>, pop': seq<Solution>)
    requires |pop| == |pop'|
    requires forall a, b :: 0 <= a < b < |pop| ==> Hamming(pop[a], pop[b]) <= Hamming(pop'[a], pop'[b])
    ensures Diversity(pop) <= Diversity(pop')
    ensures (exists a, b :: 0 <= a < b < |pop| && Hamming(pop[a], pop[b]) < Hamming(pop'[a], pop'[b]))
            ==> Diversity(pop) < Diversity(pop')
  {
    PairsFromMonotone(pop, pop', 0);
    if |pop| >= 2 {
      PairCountPositive(|pop|);
      DivideByPositive(PairsFrom(pop, 0) as real, PairsFrom(pop', 0) as real, PairCount(|pop|) as real);
    }
  }
}

=== FILE: engine.dfy ===
/** The orchestrator of main_knapsack_mbo: one generation as a step over an explicit run
    state, with every random draw of the generation passed in, and the generation loop. */
module Engine {
  import opened Results
  import opened Knapsack
  import opened RepairOperator
  import opened Migration
  import opened Mutation
  import opened Selection
  import opened DiversityTracker

  /** Upper end of the adaptive mutation band. */
  const MaxMutation: real := 0.1
  /** Generations without improvement before part of the population is replaced. */
  const StagnationLimit: nat := 20
  /** Individuals drawn per tournament (the default of tournament_selection). */
  const TournamentSize: nat := 5

  /** pop_size, and mutation_rate, the lower end of the adaptive band. */
  datatype Config = Config(popSize: nat, minMutation: real)

  /** The loop variables of main_knapsack_mbo carried from one generation to the next. */
  datatype RunState = RunState(
    population: seq<Solution>,
    best: Option<Solution>,
    bestFitness: int,
    stagnation: nat,
    fitnessHistory: seq<int>,
    diversityHistory: seq<real>)

  /** The random draws of one generation: the solutions a stagnation refresh injects, one
      index sample per tournament, one cut point per crossover, one coin per mutated bit. */
  datatype Draws = Draws(
    newcomers: seq<Solution>,
    samples: seq<seq<nat>>,
    cuts: seq<int>,
    coins: seq<seq<real>>)

  /** The draws have the shapes the generation consumes for a population of pop_size. */
  predicate ValidDraws(inst: Instance, cfg: Config, d: Draws) {
    var n := |inst.values|;
    && |d.newcomers| == cfg.popSize / 4 && AllFit(inst, d.newcomers)
    && |d.samples| >= cfg.popSize
    && (TournamentSize <= cfg.popSize ==>
          forall t :: 0 <= t < cfg.popSize ==> ValidSample(d.samples[t], cfg.popSize, TournamentSize))
    && |d.cuts| >= cfg.popSize / 2
    && (forall i :: 0 <= i < cfg.popSize / 2 ==> n >= 2 ==> 1 <= d.cuts[i] < n)
    && |d.coins| >= cfg.popSize
    && (forall k :: 0 <= k < cfg.popSize ==> |d.coins[k]| == n)
  }

  predicate NonDecreasing(xs: seq<int>) {
    forall a, b :: 0 <= a < b < |xs| ==> xs[a] <= xs[b]
  }

  /** The population fits the instance and has pop_size individuals, unless a refresh
      emptied it. */
  predicate Shaped(inst: Instance, cfg: Config, pop: seq<Solution>) {
    && |inst.values| == |inst.weights|
    && AllFit(inst, pop)
    && (|pop| == cfg.popSize || |pop| == 0)
  }

  /** The records a run keeps: the two histories grow together; the fitness history never
      decreases and ends at the best fitness; a best solution is recorded exactly when the
      best fitness is positive, and it scores that fitness. */
  ghost predicate Records(inst: Instance, best: Option<Solution>, bestFitness: int, fitnessHistory: seq<int>, diversityHistory: seq<real>) {
    && |fitnessHistory| == |diversityHistory|
    && NonDecreasing(fitnessHistory)
    && (forall k :: 0 <= k < |fitnessHistory| ==> 0 <= fitnessHistory[k] <= bestFitness)
    && (|fitnessHistory| > 0 ==> fitnessHistory[|fitnessHistory| - 1] == bestFitness)
    && bestFitness >= 0
    && (best.Some? <==> bestFitness > 0)
    && (best.Some? ==> Fits(inst, best.value) && Fitness(inst, best.value) == bestFitness)
  }

  /** What every generation preserves. */
  ghost predicate Invariant(inst: Instance, cfg: Config, st: RunState) {
    && Shaped(inst, cfg, st.population)
    && Records(inst, st.best, st.bestFitness, st.fitnessHistory, st.diversityHistory)
  }

  /** Appending the generation's best fitness keeps the records, provided that fitness did
      not fall and a best solution is recorded exactly when it is positive. */
  lemma RecordsExtend(inst: Instance, best: Option<Solution>, bestFitness: int, fitnessHistory: seq<int>, diversityHistory: seq<real>,
                      best': Option<Solution>, bestFitness': int, diversity: real)
    requires Records(inst, best, bestFitness, fitnessHistory, diversityHistory)
    requires bestFitness' >= bestFitness
    requires best'.Some? <==> bestFitness' > 0
    requires best'.Some? ==> Fits(inst, best'.value) && Fitness(inst, best'.value) == bestFitness'
    ensures Records(inst, best', bestFitness', fitnessHistory + [bestFitness'], diversityHistory + [diversity])
  {
    var h := fitnessHistory + [bestFitness'];
    forall a, b | 0 <= a < b < |h| ensures h[a] <= h[b] {
      if b == |h| - 1 {
        assert h[a] <= bestFitness';
      }
    }
  }

  /** min_mutation + (max_mutation - min_mutation) * (1 - diversity), not clamped. */
  function AdaptiveRate(minMutation: real, diversity: real): real {
    minMutation + (MaxMutation - minMutation) * (1.0 - diversity / 1.0)
  }

  /** The rate stays in the band [mutation_rate, 0.1] while diversity is in [0, 1], and
      falls below mutation_rate once diversity exceeds 1, which a mean Hamming distance
      readily does: the formula is not clamped. */
  lemma AdaptiveRateBand(minMutation: real, diversity: real)
    requires minMutation < MaxMutation
    ensures 0.0 <= diversity <= 1.0 ==> minMutation <= AdaptiveRate(minMutation, diversity) <= MaxMutation
    ensures diversity > 1.0 ==> AdaptiveRate(minMutation, diversity) < minMutation
  {
    var span := MaxMutation - minMutation;
    if 0.0 <= diversity <= 1.0 {
      assert 0.0 <= span * (1.0 - diversity) <= span;
    }
    if diversity > 1.0 {
      assert span * (1.0 - diversity) < 0.0;
    }
  }

  /** population[-k:] = newcomers: the last k individuals are replaced when 0 < k <= n; with
      k = 0 the slice -0: is the whole population, which the (empty) newcomers list replaces. */
  function Refresh(pop: seq<Solution>, k: nat, newcomers: seq<Solution>): (r: seq<Solution>)
    requires |newcomers| == k
    ensures 0 < k <= |pop| ==> |r| == |pop| && r[..|pop| - k] == pop[..|pop| - k] && r[|pop| - k..] == newcomers
    ensures k == 0 ==> r == []
    ensures forall x :: x in r ==> x in pop || x in newcomers
  {
    var start := if k == 0 || k > |pop| then 0 else |pop| - k;
    pop[..start] + newcomers
  }

  /** Steps 3-4 of a generation: the generation's best fitness is max(fitness_values), and
      its first holder replaces the best-ever solution when it strictly improves on it. */
  function TrackBest(inst: Instance, st: RunState, fits: seq<int>): (r: (Option<Solution>, int, nat))
    requires AllFit(inst, st.population) && fits == FitnessAll(inst, st.population) && |fits| > 0
    requires st.best.Some? ==> Fits(inst, st.best.value) && Fitness(inst, st.best.value) == st.bestFitness
    ensures r.1 >= st.bestFitness
    ensures forall k :: 0 <= k < |fits| ==> fits[k] <= r.1
    ensures r.1 > st.bestFitness <==> r.2 == 0
    ensures r.1 > st.bestFitness ==> r.0.Some? && r.0.value in st.population
    ensures r.1 > st.bestFitness ==>
      exists p :: 0 <= p < |fits| && r.0 == Some(st.population[p]) && fits[p] == r.1 && (forall k :: 0 <= k < p ==> fits[k] < r.1)
    ensures r.1 == st.bestFitness ==> r.0 == st.best && r.2 == st.stagnation + 1
    ensures r.0.Some? ==> Fits(inst, r.0.value) && Fitness(inst, r.0.value) == r.1
  {
    var top := FirstMax(fits);
    if fits[top] > st.bestFitness then (Some(st.population[top]), fits[top], 0)
    else (st.best, st.bestFitness, st.stagnation + 1)
  }

  /** best'/bestFitness' is what tracking the best over pop makes of best/bestFitness: the
      fitness never drops and bounds every individual of pop; an improvement records the
      first individual holding it, and otherwise the best solution is kept. */
  predicate BestOf(inst: Instance, pop: seq<Solution>, best: Option<Solution>, bestFitness: int,
                   best': Option<Solution>, bestFitness': int)
    requires AllFit(inst, pop)
  {
    && bestFitness' >= bestFitness
    && (forall k :: 0 <= k < |pop| ==> Fitness(inst, pop[k]) <= bestFitness')
    && (bestFitness' > bestFitness ==>
          exists p :: 0 <= p < |pop| && best' == Some(pop[p]) && Fitness(inst, pop[p]) == bestFitness' &&
            forall k :: 0 <= k < p ==> Fitness(inst, pop[k]) < bestFitness')
    && (bestFitness' == bestFitness ==> best' == best)
  }

  /** TrackBest, stated over the population's fitness as BestOf. */
  lemma TrackBestOf(inst: Instance, st: RunState, fits: seq<int>)
    requires AllFit(inst, st.population) && fits == FitnessAll(inst, st.population) && |fits| > 0
    requires st.best.Some? ==> Fits(inst, st.best.value) && Fitness(inst, st.best.value) == st.bestFitness
    ensures var r := TrackBest(inst, st, fits); BestOf(inst, st.population, st.best, st.bestFitness, r.0, r.1)
  {
    var r := TrackBest(inst, st, fits);
    if r.1 > st.bestFitness {
      var p :| 0 <= p < |fits| && r.0 == Some(st.population[p]) && fits[p] == r.1 && (forall k :: 0 <= k < p ==> fits[k] < r.1);
      assert forall k :: 0 <= k < p ==> Fitness(inst, st.population[k]) < r.1;
    }
  }

  /** The population a generation breeds from stays shaped after a stagnation refresh: a
      population of fewer than four is emptied, and only then, since pop_size/4 is zero. */
  lemma RefreshShaped(inst: Instance, cfg: Config, pop: seq<Solution>, newcomers: seq<Solution>)
    requires Shaped(inst, cfg, pop) && |pop| > 0
    requires |newcomers| == cfg.popSize / 4 && AllFit(inst, newcomers)
    ensures Shaped(inst, cfg, Refresh(pop, cfg.popSize / 4, newcomers))
    ensures |Refresh(pop, cfg.popSize / 4, newcomers)| == 0 <==> cfg.popSize < 4
  {
    var r := Refresh(pop, cfg.popSize / 4, newcomers);
    forall x | x in r ensures Fits(inst, x) {
      assert x in pop || x in newcomers;
    }
  }

  /** The orchestrator's repair pass over a whole population. */
  function RepairPass(inst: Instance, pop: seq<Solution>): (r: seq<Solution>)
    requires AllFit(inst, pop) && PositiveWeights(inst)
    ensures |r| == |pop| && AllFit(inst, r)
    ensures forall k :: 0 <= k < |pop| ==> r[k] == Repair(inst, pop[k])
    ensures inst.capacity >= 0 ==> forall k :: 0 <= k < |r| ==> Feasible(inst, r[k])
  {
    var r := seq(|pop|, k requires 0 <= k < |pop| => Repair(inst, pop[k]));
    RepairPassFeasible(inst, pop, r);
    r
  }

  /** Tournament winners are drawn from the population, so they fit the instance, and the
      generation's cut points suit every pair of them. */
  lemma ParentsReady(inst: Instance, cfg: Config, pop: seq<Solution>, parents: seq<Solution>, d: Draws)
    requires ValidDraws(inst, cfg, d)
    requires AllFit(inst, pop) && (|pop| == cfg.popSize || |pop| == 0)
    requires |parents| == |pop| && forall t :: 0 <= t < |pop| ==> parents[t] in pop
    ensures AllFit(inst, parents)
    ensures |d.cuts| >= |parents| / 2
    ensures forall i :: 0 <= i < |parents| / 2 ==> |inst.values| >= 2 ==> 1 <= d.cuts[i] < |inst.values|
    ensures forall i :: 0 <= i < |parents| / 2 ==> ValidCut(parents[i], parents[|parents| / 2 + i], d.cuts[i])
  {
    assert AllFit(inst, parents);
  }

  /** Steps 6-8: tournaments over the (possibly refreshed) population with the fitness
      values computed before the refresh, migration, then mutation, repair and local search
      of every migrant, and the orchestrator's second repair pass. */
  function Breed(inst: Instance, cfg: Config, pop: seq<Solution>, fits: seq<int>, rate: real, d: Draws): (r: Result<seq<Solution>>)
    requires ValidDraws(inst, cfg, d) && PositiveWeights(inst)
    requires AllFit(inst, pop) && (|pop| == cfg.popSize || |pop| == 0) && |fits| >= |pop|
    ensures r.Success? ==> |r.value| == |pop| && AllFit(inst, r.value)
    ensures r.Success? && inst.capacity >= 0 ==> forall k :: 0 <= k < |r.value| ==> Feasible(inst, r.value[k])
  {
    var parents :- Tournament(pop, fits, TournamentSize, d.samples);
    ParentsReady(inst, cfg, pop, parents, d);
    var migrated :- Migrate(parents, d.cuts);
    MigrateLengths(parents, d.cuts, |inst.values|);
    var offspring := MutateAndSearch(inst, migrated, rate, d.coins);
    Success(RepairPass(inst, offspring))
  }

  /** Breeding fails exactly as tournament selection does for 1 to 4 individuals, and
      succeeds from 5 individuals on when solutions have at least two bits to cut between. */
  lemma BreedOutcome(inst: Instance, cfg: Config, pop: seq<Solution>, fits: seq<int>, rate: real, d: Draws)
    requires ValidDraws(inst, cfg, d) && PositiveWeights(inst)
    requires AllFit(inst, pop) && (|pop| == cfg.popSize || |pop| == 0) && |fits| >= |pop|
    ensures |pop| == 0 ==> Breed(inst, cfg, pop, fits, rate, d) == Success([])
    ensures |pop| > 0 && |pop| < TournamentSize ==> Breed(inst, cfg, pop, fits, rate, d) == Failure(SampleLargerThanPopulation)
    ensures |pop| >= TournamentSize && |inst.values| >= 2 ==> Breed(inst, cfg, pop, fits, rate, d).Success?
    ensures |pop| >= TournamentSize && |inst.values| < 2 ==> Breed(inst, cfg, pop, fits, rate, d) == Failure(EmptyCutRange)
  {
    if |pop| >= TournamentSize {
      var parents := Tournament(pop, fits, TournamentSize, d.samples).value;
      ParentsReady(inst, cfg, pop, parents, d);
      if |inst.values| >= 2 {
        MigrateSucceeds(parents, d.cuts, |inst.values|);
      } else {
        MigrateNeedsTwoBits(parents, d.cuts, |inst.values|);
      }
    }
  }

  /** Steps 9-10: the elite, the pop_size/10 fittest by the fitness values computed at the
      start of the generation but copied from the possibly refreshed population, joins the
      offspring; the pool is re-evaluated and truncated to the pop_size fittest. */
  function Survivors(inst: Instance, cfg: Config, pop: seq<Solution>, fits: seq<int>, offspring: seq<Solution>): (next: seq<Solution>)
    requires AllFit(inst, pop) && AllFit(inst, offspring)
    requires |fits| == |pop| || cfg.popSize / 10 == 0
    ensures AllFit(inst, next)
    ensures |next| <= cfg.popSize
    ensures |offspring| >= cfg.popSize ==> |next| == cfg.popSize
    ensures |pop| == 0 && |offspring| == 0 ==> next == []
  {
    var elite := SelectNextGeneration(pop, fits, cfg.popSize / 10);
    PoolFits(inst, pop, elite, offspring);
    SelectNextGeneration(elite + offspring, FitnessAll(inst, elite + offspring), cfg.popSize)
  }

  /** The survivors are the fittest of elite + offspring: they come from the population or
      the offspring, in non-increasing fitness order, and no offspring left out is fitter
      than any survivor. */
  lemma SurvivorsKeepFittest(inst: Instance, cfg: Config, pop: seq<Solution>, fits: seq<int>, offspring: seq<Solution>)
    requires AllFit(inst, pop) && AllFit(inst, offspring)
    requires |fits| == |pop| || cfg.popSize / 10 == 0
    ensures var next := Survivors(inst, cfg, pop, fits, offspring);
      && (forall a, b :: 0 <= a < b < |next| ==> Fitness(inst, next[a]) >= Fitness(inst, next[b]))
      && (forall t :: 0 <= t < |next| ==> next[t] in pop || next[t] in offspring)
      && (forall j :: 0 <= j < |offspring| && offspring[j] !in next ==>
            forall t :: 0 <= t < |next| ==> Fitness(inst, offspring[j]) <= Fitness(inst, next[t]))
  {
    var elite := SelectNextGeneration(pop, fits, cfg.popSize / 10);
    PoolSelection(inst, pop, elite, offspring, cfg.popSize);
  }

  /** Truncating elite + offspring by fitness: survivors fit, come from the population or
      the offspring, are in non-increasing fitness order, and no offspring left out is
      fitter than a survivor. */
  lemma PoolSelection(inst: Instance, pop: seq<Solution>, elite: seq<Solution>, offspring: seq<Solution>, popSize: nat)
    requires AllFit(inst, pop) && AllFit(inst, offspring)
    requires forall t :: 0 <= t < |elite| ==> elite[t] in pop
    ensures var next := SelectNextGeneration(elite + offspring, FitnessAll(inst, elite + offspring), popSize);
      && |next| == Min(popSize, |elite| + |offspring|)
      && AllFit(inst, next)
      && (forall a, b :: 0 <= a < b < |next| ==> Fitness(inst, next[a]) >= Fitness(inst, next[b]))
      && (forall t :: 0 <= t < |next| ==> next[t] in pop || next[t] in offspring)
      && (forall j :: 0 <= j < |offspring| && offspring[j] !in next ==>
            forall t :: 0 <= t < |next| ==> Fitness(inst, offspring[j]) <= Fitness(inst, next[t]))
  {
    var pool := elite + offspring;
    PoolFits(inst, pop, elite, offspring);
    SelectNextByFitness(inst, pool, popSize);
    var next := SelectNextGeneration(pool, FitnessAll(inst, pool), popSize);
    PoolLeftOut(inst, pop, elite, offspring, next);
  }

  /** What truncating elite + offspring leaves: survivors come from the population or the
      offspring, and an offspring left out is no fitter than any survivor. */
  lemma PoolLeftOut(inst: Instance, pop: seq<Solution>, elite: seq<Solution>, offspring: seq<Solution>, next: seq<Solution>)
    requires AllFit(inst, elite + offspring) && AllFit(inst, offspring)
    requires forall t :: 0 <= t < |elite| ==> elite[t] in pop
    requires forall t :: 0 <= t < |next| ==> next[t] in elite + offspring
    requires AllFit(inst, next)
    requires forall i :: 0 <= i < |elite + offspring| && (elite + offspring)[i] !in next ==>
      forall t :: 0 <= t < |next| ==> Fitness(inst, (elite + offspring)[i]) <= Fitness(inst, next[t])
    ensures forall t :: 0 <= t < |next| ==> next[t] in pop || next[t] in offspring
    ensures forall j :: 0 <= j < |offspring| && offspring[j] !in next ==>
      forall t :: 0 <= t < |next| ==> Fitness(inst, offspring[j]) <= Fitness(inst, next[t])
  {
    var pool := elite + offspring;
    forall t | 0 <= t < |next| ensures next[t] in pop || next[t] in offspring {
      var i :| 0 <= i < |pool| && pool[i] == next[t];
      if i < |elite| {
        assert elite[i] in pop;
      } else {
        assert offspring[i - |elite|] == next[t];
      }
    }
    forall j | 0 <= j < |offspring| && offspring[j] !in next
      ensures forall t :: 0 <= t < |next| ==> Fitness(inst, offspring[j]) <= Fitness(inst, next[t])
    {
      assert pool[|elite| + j] == offspring[j];
    }
  }

  /** Elite copies taken from the population, followed by the offspring, fit the instance. */
  lemma PoolFits(inst: Instance, pop: seq<Solution>, elite: seq<Solution>, offspring: seq<Solution>)
    requires AllFit(inst, pop) && AllFit(inst, offspring)
    requires forall t :: 0 <= t < |elite| ==> elite[t] in pop
    ensures AllFit(inst, elite + offspring)
  {
    assert AllFit(inst, elite);
  }

  /** Elitism: when pop_size/10 is at least one and the fitness values are those of the
      population itself (no refresh replaced part of it), the fittest individual of the
      generation, or one as fit, heads the next population. */
  lemma {:induction false} ElitismKeepsBest(inst: Instance, cfg: Config, pop: seq<Solution>, offspring: seq<Solution>)
    requires AllFit(inst, pop) && AllFit(inst, offspring)
    requires cfg.popSize / 10 > 0 && |pop| > 0
    ensures var next := Survivors(inst, cfg, pop, FitnessAll(inst, pop), offspring);
      |next| > 0 && forall i :: 0 <= i < |pop| ==> Fitness(inst, pop[i]) <= Fitness(inst, next[0])
  {
    var fits := FitnessAll(inst, pop);
    var elite := SelectNextGeneration(pop, fits, cfg.popSize / 10);
    var pool := elite + offspring;
    PoolFits(inst, pop, elite, offspring);
    SelectNextByFitness(inst, pop, cfg.popSize / 10);
    SelectNextByFitness(inst, pool, cfg.popSize);
    var next := SelectNextGeneration(pool, FitnessAll(inst, pool), cfg.popSize);
    assert next == Survivors(inst, cfg, pop, fits, offspring);
    var champion := pool[0];
    assert champion == elite[0];
    forall i | 0 <= i < |pop| ensures Fitness(inst, pop[i]) <= Fitness(inst, champion) {
      if pop[i] in elite {
        var t :| 0 <= t < |elite| && elite[t] == pop[i];
        if t > 0 {
          assert Fitness(inst, elite[0]) >= Fitness(inst, elite[t]);
        }
      }
    }
    if champion in next {
      var t :| 0 <= t < |next| && next[t] == champion;
      if t > 0 {
        assert Fitness(inst, next[0]) >= Fitness(inst, next[t]);
      }
    } else {
      assert Fitness(inst, pool[0]) <= Fitness(inst, next[0]);
    }
  }

  /** No individual is fitter than one before it. */
  predicate FitnessOrdered(inst: Instance, pop: seq<Solution>)
    requires AllFit(inst, pop)
  {
    forall a, b :: 0 <= a < b < |pop| ==> Fitness(inst, pop[a]) >= Fitness(inst, pop[b])
  }

  /** next is a fitness truncation of the population and its offspring: in non-increasing
      fitness order, drawn from the two, and no offspring left out is fitter than a member. */
  predicate FittestOf(inst: Instance, pop: seq<Solution>, offspring: seq<Solution>, next: seq<Solution>)
    requires AllFit(inst, offspring) && AllFit(inst, next)
  {
    && FitnessOrdered(inst, next)
    && (forall t :: 0 <= t < |next| ==> next[t] in pop || next[t] in offspring)
    && (forall j :: 0 <= j < |offspring| && offspring[j] !in next ==>
          forall t :: 0 <= t < |next| ==> Fitness(inst, offspring[j]) <= Fitness(inst, next[t]))
  }

  /** next is headed by an individual at least as fit as every individual of pop. */
  predicate Headed(inst: Instance, pop: seq<Solution>, next: seq<Solution>)
    requires AllFit(inst, pop) && AllFit(inst, next)
  {
    |next| > 0 && forall k :: 0 <= k < |pop| ==> Fitness(inst, pop[k]) <= Fitness(inst, next[0])
  }

  /** SurvivorsKeepFittest, packaged as FittestOf. */
  lemma SurvivorsFittestOf(inst: Instance, cfg: Config, pop: seq<Solution>, fits: seq<int>, offspring: seq<Solution>)
    requires AllFit(inst, pop) && AllFit(inst, offspring)
    requires |fits| == |pop| || cfg.popSize / 10 == 0
    ensures FittestOf(inst, pop, offspring, Survivors(inst, cfg, pop, fits, offspring))
  {
    SurvivorsKeepFittest(inst, cfg, pop, fits, offspring);
  }

  /** Steps 6-10 together: breeding, then elitism and truncation. The next population keeps
      the shape of the current one; breeding fails for 1 to 4 individuals and succeeds from
      5 individuals with at least two items on. */
  method NextPopulation(inst: Instance, cfg: Config, pop: seq<Solution>, fits: seq<int>, rate: real, d: Draws) returns (r: Result<seq<Solution>>)
    requires ValidDraws(inst, cfg, d) && PositiveWeights(inst)
    requires Shaped(inst, cfg, pop) && (|pop| == 0 ==> cfg.popSize < 4) && |fits| == cfg.popSize
    ensures r.Success? ==> Shaped(inst, cfg, r.value)
    ensures |pop| == 0 ==> r == Success([])
    ensures 0 < |pop| < TournamentSize ==> r == Failure(SampleLargerThanPopulation)
    ensures |pop| >= TournamentSize && |inst.values| >= 2 ==> r.Success? && |r.value| == cfg.popSize
    ensures |pop| >= TournamentSize && |inst.values| < 2 ==> r == Failure(EmptyCutRange)
    ensures r.Success? ==> Breed(inst, cfg, pop, fits, rate, d).Success?
    ensures r.Success? ==> FittestOf(inst, pop, Breed(inst, cfg, pop, fits, rate, d).value, r.value)
    ensures (r.Success? && cfg.popSize / 10 > 0 && |pop| > 0 && fits == FitnessAll(inst, pop)) ==>
      Headed(inst, pop, r.value)
  {
    BreedOutcome(inst, cfg, pop, fits, rate, d);
    var bred := Breed(inst, cfg, pop, fits, rate, d);
    if bred.Failure? {
      return Failure(bred.error);
    }
    var offspring := bred.value;
    var next := Survivors(inst, cfg, pop, fits, offspring);
    SurvivorsFittestOf(inst, cfg, pop, fits, offspring);
    if cfg.popSize / 10 > 0 && |pop| > 0 && fits == FitnessAll(inst, pop) {
      ElitismKeepsBest(inst, cfg, pop, offspring);
    }
    r := Success(next);
  }

  /** The population a generation breeds from: the scored population, or its refresh when
      the stagnation counter reaches the limit. */
  function Refreshed(inst: Instance, cfg: Config, st: RunState, d: Draws): seq<Solution>
    requires Invariant(inst, cfg, st) && |st.population| > 0 && |d.newcomers| == cfg.popSize / 4
  {
    if TrackBest(inst, st, FitnessAll(inst, st.population)).2 >= StagnationLimit
    then Refresh(st.population, cfg.popSize / 4, d.newcomers)
    else st.population
  }

  /** next is what breeding from src, with the fitness values and the adaptive rate of the
      scored population, and truncating by fitness gives: a successful Breed whose offspring
      and src next is FittestOf. */
  predicate BredFrom(inst: Instance, cfg: Config, scored: seq<Solution>, src: seq<Solution>, d: Draws, next: seq<Solution>) {
    && ValidDraws(inst, cfg, d) && PositiveWeights(inst)
    && AllFit(inst, scored) && AllFit(inst, src) && AllFit(inst, next)
    && (|src| == cfg.popSize || |src| == 0) && |scored| >= |src|
    && var bred := Breed(inst, cfg, src, FitnessAll(inst, scored), AdaptiveRate(cfg.minMutation, Diversity(scored)), d);
       bred.Success? && FittestOf(inst, src, bred.value, next)
  }

  /** One generation leads from pop to next: next is bred from pop itself, or from pop after
      a stagnation refresh with the generation's newcomers. */
  /** next follows from pop by one generation: bred from pop itself, or from its stagnation
      refresh, ranked by pop's fitness values. */
  predicate Stepped(inst: Instance, cfg: Config, pop: seq<Solution>, d: Draws, next: seq<Solution>) {
    || BredFrom(inst, cfg, pop, pop, d, next)
    || (|d.newcomers| == cfg.popSize / 4 && BredFrom(inst, cfg, pop, Refresh(pop, cfg.popSize / 4, d.newcomers), d, next))
  }

  /** One generation of main_knapsack_mbo: diversity and the adaptive rate, fitness of every
      individual, best-solution tracking, the stagnation refresh, breeding, elitism and
      truncation, and the two history entries. An empty population fails in max(); one of 1
      to 4 individuals fails in tournament selection unless a refresh emptied it first; from
      5 individuals with at least two items on, the generation succeeds and the next
      population again has pop_size individuals. */
  method Generation(inst: Instance, cfg: Config, st: RunState, d: Draws) returns (r: Result<RunState>)
    requires Invariant(inst, cfg, st) && ValidDraws(inst, cfg, d) && PositiveWeights(inst)
    ensures r.Success? ==> Invariant(inst, cfg, r.value)
    ensures r.Success? ==> r.value.fitnessHistory == st.fitnessHistory + [r.value.bestFitness]
    ensures r.Success? ==> r.value.diversityHistory == st.diversityHistory + [Diversity(st.population)]
    ensures r.Success? ==> BestOf(inst, st.population, st.best, st.bestFitness, r.value.best, r.value.bestFitness)
    ensures r.Success? ==>
      r.value.stagnation == (if r.value.bestFitness > st.bestFitness || st.stagnation + 1 >= StagnationLimit then 0 else st.stagnation + 1)
    ensures |st.population| == 0 ==> r == Failure(EmptySequence)
    ensures 0 < |st.population| < TournamentSize && st.stagnation + 1 < StagnationLimit ==>
      r == Failure(SampleLargerThanPopulation)
    ensures |st.population| >= TournamentSize && |inst.values| >= 2 ==>
      r.Success? && |r.value.population| == cfg.popSize
    ensures |st.population| >= TournamentSize && |inst.values| < 2 ==> r == Failure(EmptyCutRange)
    ensures 0 < |st.population| < TournamentSize && r.Success? ==> |st.population| < 4 && r.value.population == []
    ensures (&& 0 < |st.population| < 4 && st.stagnation + 1 >= StagnationLimit
             && forall k :: 0 <= k < |st.population| ==> Fitness(inst, st.population[k]) <= st.bestFitness) ==>
      r.Success? && r.value.population == []
    ensures r.Success? ==> FitnessOrdered(inst, r.value.population)
    ensures r.Success? ==>
      (|st.population| > 0 && BredFrom(inst, cfg, st.population, Refreshed(inst, cfg, st, d), d, r.value.population))
    ensures (&& r.Success? && cfg.popSize / 10 > 0
             && (r.value.bestFitness > st.bestFitness || st.stagnation + 1 < StagnationLimit)) ==>
      Headed(inst, st.population, r.value.population)
  {
    var pop := st.population;
    var diversity := CalculateDiversity(pop);
    var rate := AdaptiveRate(cfg.minMutation, diversity);
    var fits := FitnessAll(inst, pop);
    if |fits| == 0 {
      return Failure(EmptySequence);
    }
    var tracked := TrackBest(inst, st, fits);
    TrackBestOf(inst, st, fits);
    var stagnation := tracked.2;
    var current := pop;
    if stagnation >= StagnationLimit {
      RefreshShaped(inst, cfg, pop, d.newcomers);
      current := Refresh(pop, cfg.popSize / 4, d.newcomers);
      stagnation := 0;
    }
    assert Shaped(inst, cfg, current) && (|current| == 0 ==> cfg.popSize < 4);
    assert current == Refreshed(inst, cfg, st, d);
    var next :- NextPopulation(inst, cfg, current, fits, rate, d);
    RecordsExtend(inst, st.best, st.bestFitness, st.fitnessHistory, st.diversityHistory, tracked.0, tracked.1, diversity);
    r := Success(RunState(next, tracked.0, tracked.1, stagnation,
                          st.fitnessHistory + [tracked.1], st.diversityHistory + [diversity]));
  }

  /** Repairing every individual makes every individual feasible. */
  lemma RepairPassFeasible(inst: Instance, pop: seq<Solution>, repaired: seq<Solution>)
    requires AllFit(inst, pop) && PositiveWeights(inst)
    requires |repaired| == |pop| && forall k :: 0 <= k < |pop| ==> repaired[k] == Repair(inst, pop[k])
    ensures AllFit(inst, repaired)
    ensures inst.capacity >= 0 ==> forall k :: 0 <= k < |repaired| ==> Feasible(inst, repaired[k])
  {
    if inst.capacity >= 0 {
      forall k | 0 <= k < |repaired| ensures Feasible(inst, repaired[k]) {
        RepairSpec(inst, pop[k]);
      }
    }
  }

  /** The state before the first generation: the repaired initial population, no best
      solution, best fitness 0, no stagnation and empty histories. */
  function Start(inst: Instance, cfg: Config, initial: seq<Solution>): (st: RunState)
    requires |inst.values| == |inst.weights| && PositiveWeights(inst)
    requires |initial| == cfg.popSize && AllFit(inst, initial)
    ensures Invariant(inst, cfg, st) && st.fitnessHistory == [] && st.best == None
    ensures inst.capacity >= 0 ==> forall k :: 0 <= k < |st.population| ==> Feasible(inst, st.population[k])
  {
    RunState(RepairPass(inst, initial), None, 0, 0, [], [])
  }

  /** A sequence of fitting populations, one per generation scored: entry g of the diversity
      history is the diversity of population g, the best fitness bounds the fitness of every
      individual ever scored, and every population bred by a generation is in non-increasing
      fitness order. */
  predicate Trajectory(inst: Instance, pops: seq<seq<Solution>>, diversityHistory: seq<real>, bestFitness: int) {
    && |pops| == |diversityHistory|
    && (forall g :: 0 <= g < |pops| ==> AllFit(inst, pops[g]))
    && (forall g :: 0 <= g < |pops| ==> diversityHistory[g] == Diversity(pops[g]))
    && (forall g, k :: 0 <= g < |pops| && 0 <= k < |pops[g]| ==> Fitness(inst, pops[g][k]) <= bestFitness)
    && (forall g :: 0 < g < |pops| ==> FitnessOrdered(inst, pops[g]))
  }

  /** A generation that scores pop, records its diversity and does not lower the best fitness
      extends the trajectory by pop. */
  lemma {:induction false} TrajectoryExtend(inst: Instance, pops: seq<seq<Solution>>, diversityHistory: seq<real>, bestFitness: int,
                                            pop: seq<Solution>, bestFitness': int)
    requires Trajectory(inst, pops, diversityHistory, bestFitness)
    requires AllFit(inst, pop) && bestFitness' >= bestFitness
    requires forall k :: 0 <= k < |pop| ==> Fitness(inst, pop[k]) <= bestFitness'
    requires |pops| > 0 ==> FitnessOrdered(inst, pop)
    ensures Trajectory(inst, pops + [pop], diversityHistory + [Diversity(pop)], bestFitness')
  {
    var pops' := pops + [pop];
    var history' := diversityHistory + [Diversity(pop)];
    forall g | 0 <= g < |pops'| ensures AllFit(inst, pops'[g]) && history'[g] == Diversity(pops'[g]) {
      if g < |pops| {
        assert pops'[g] == pops[g] && history'[g] == diversityHistory[g];
      }
    }
    forall g, k | 0 <= g < |pops'| && 0 <= k < |pops'[g]| ensures Fitness(inst, pops'[g][k]) <= bestFitness' {
      if g < |pops| {
        assert pops'[g] == pops[g];
      }
    }
    forall g | 0 < g < |pops'| ensures FitnessOrdered(inst, pops'[g]) {
      if g < |pops| {
        assert pops'[g] == pops[g];
      }
    }
  }

  /** The best solution and the fitness history against the populations scored: entry g of
      the history bounds every individual of population g, and a recorded best solution is
      an individual of one of them. */
  predicate BestSoFar(inst: Instance, pops: seq<seq<Solution>>, fitnessHistory: seq<int>, best: Option<Solution>) {
    && |pops| == |fitnessHistory|
    && (forall g :: 0 <= g < |pops| ==> AllFit(inst, pops[g]))
    && (forall g, k :: 0 <= g < |pops| && 0 <= k < |pops[g]| ==> Fitness(inst, pops[g][k]) <= fitnessHistory[g])
    && (best.Some? ==> exists g, k :: 0 <= g < |pops| && 0 <= k < |pops[g]| && best.value == pops[g][k])
  }

  /** Scoring one more population and tracking the best over it keeps BestSoFar. */
  lemma {:induction false} BestSoFarExtend(inst: Instance, pops: seq<seq<Solution>>, fitnessHistory: seq<int>, best: Option<Solution>,
                                           bestFitness: int, pop: seq<Solution>, best': Option<Solution>, bestFitness': int)
    requires BestSoFar(inst, pops, fitnessHistory, best)
    requires AllFit(inst, pop) && BestOf(inst, pop, best, bestFitness, best', bestFitness')
    ensures BestSoFar(inst, pops + [pop], fitnessHistory + [bestFitness'], best')
  {
    var pops' := pops + [pop];
    var history' := fitnessHistory + [bestFitness'];
    forall g | 0 <= g < |pops'| ensures AllFit(inst, pops'[g]) {
      if g < |pops| {
        assert pops'[g] == pops[g];
      }
    }
    forall g, k | 0 <= g < |pops'| && 0 <= k < |pops'[g]| ensures Fitness(inst, pops'[g][k]) <= history'[g] {
      if g < |pops| {
        assert pops'[g] == pops[g] && history'[g] == fitnessHistory[g];
      }
    }
    if best'.Some? {
      if bestFitness' > bestFitness {
        var p :| 0 <= p < |pop| && best' == Some(pop[p]);
        assert best'.value == pops'[|pops|][p];
      } else {
        var g, k :| 0 <= g < |pops| && 0 <= k < |pops[g]| && best.value == pops[g][k];
        assert best'.value == pops'[g][k];
      }
    }
  }

  /** One iteration of the generation loop: a generation, with the population it started
      from appended to the run's trajectory. */
  method Advance(inst: Instance, cfg: Config, st: RunState, d: Draws, ghost pops: seq<seq<Solution>>)
    returns (r: Result<RunState>, ghost pops': seq<seq<Solution>>)
    requires Invariant(inst, cfg, st) && ValidDraws(inst, cfg, d) && PositiveWeights(inst)
    requires Trajectory(inst, pops, st.diversityHistory, st.bestFitness)
    requires |pops| > 0 ==> FitnessOrdered(inst, st.population)
    requires BestSoFar(inst, pops, st.fitnessHistory, st.best)
    ensures pops' == pops + [st.population]
    ensures r.Success? ==> BestSoFar(inst, pops', r.value.fitnessHistory, r.value.best)
    ensures r.Success? ==> Stepped(inst, cfg, st.population, d, r.value.population)
    ensures r.Success? ==> Invariant(inst, cfg, r.value) && |r.value.fitnessHistory| == |st.fitnessHistory| + 1
    ensures r.Success? ==> Trajectory(inst, pops', r.value.diversityHistory, r.value.bestFitness)
    ensures r.Success? ==> FitnessOrdered(inst, r.value.population)
    ensures |st.population| == 0 ==> r == Failure(EmptySequence)
    ensures 0 < |st.population| < TournamentSize && st.stagnation + 1 < StagnationLimit ==>
      r == Failure(SampleLargerThanPopulation)
    ensures |st.population| >= TournamentSize && |inst.values| >= 2 ==>
      r.Success? && |r.value.population| == cfg.popSize
    ensures |st.population| >= TournamentSize && |inst.values| < 2 ==> r == Failure(EmptyCutRange)
  {
    r := Generation(inst, cfg, st, d);
    pops' := pops + [st.population];
    if r.Success? {
      TrajectoryExtend(inst, pops, st.diversityHistory, st.bestFitness, st.population, r.value.bestFitness);
      BestSoFarExtend(inst, pops, st.fitnessHistory, st.best, st.bestFitness, st.population, r.value.best, r.value.bestFitness);
    }
  }

  /** What main_knapsack_mbo returns. */
  datatype Outcome = Outcome(best: Option<Solution>, bestFitness: int, fitnessHistory: seq<int>, diversityHistory: seq<real>)

  /** The generation loop of main_knapsack_mbo from the repaired initial population, one
      generation per element of the draws, stopping at the first failure. The ghost pops is a
      sequence of fitting populations starting from the repaired initial one, one per
      generation; how each follows from the one before is stated per generation by Advance
      (Stepped) and Generation (BredFrom), not by this contract. */
  method Evolve(inst: Instance, cfg: Config, initial: seq<Solution>, draws: seq<Draws>)
    returns (r: Result<RunState>, ghost pops: seq<seq<Solution>>)
    requires |inst.values| == |inst.weights| && PositiveWeights(inst)
    requires |initial| == cfg.popSize && AllFit(inst, initial)
    requires forall g :: 0 <= g < |draws| ==> ValidDraws(inst, cfg, draws[g])
    ensures r.Success? ==> Invariant(inst, cfg, r.value) && |r.value.fitnessHistory| == |draws|
    ensures |draws| == 0 ==> r == Success(Start(inst, cfg, initial))
    ensures |draws| > 0 && cfg.popSize < TournamentSize ==>
      r == Failure(if cfg.popSize == 0 then EmptySequence else SampleLargerThanPopulation)
    ensures cfg.popSize >= TournamentSize && |inst.values| >= 2 ==> r.Success?
    ensures |draws| > 0 && cfg.popSize >= TournamentSize && |inst.values| < 2 ==> r == Failure(EmptyCutRange)
    ensures r.Success? ==> |pops| == |draws|
    ensures r.Success? && |draws| > 0 ==> pops[0] == RepairPass(inst, initial)
    ensures r.Success? ==> Trajectory(inst, pops, r.value.diversityHistory, r.value.bestFitness)
    ensures r.Success? ==> BestSoFar(inst, pops, r.value.fitnessHistory, r.value.best)
  {
    var st := Start(inst, cfg, initial);
    var g := 0;
    pops := [];
    while g < |draws|
      invariant 0 <= g <= |draws|
      invariant Invariant(inst, cfg, st)
      invariant |st.fitnessHistory| == g
      invariant g == 0 ==> st == Start(inst, cfg, initial)
      invariant cfg.popSize < TournamentSize || |inst.values| < 2 ==> g == 0
      invariant cfg.popSize >= TournamentSize && |inst.values| >= 2 ==> |st.population| == cfg.popSize
      invariant |pops| == g && (g > 0 ==> pops[0] == RepairPass(inst, initial))
      invariant Trajectory(inst, pops, st.diversityHistory, st.bestFitness)
      invariant g > 0 ==> FitnessOrdered(inst, st.population)
      invariant BestSoFar(inst, pops, st.fitnessHistory, st.best)
    {
      var next;
      next, pops := Advance(inst, cfg, st, draws[g], pops);
      if next.Failure? {
        r := Failure(next.error);
        return;
      }
      st := next.value;
      g := g + 1;
    }
    r := Success(st);
  }

  /** What a finished run reports: a recorded best solution is feasible and worth the best
      fitness, and once a generation has run the best fitness bounds every repaired initial
      individual. */
  lemma RunOutcome(inst: Instance, cfg: Config, initial: seq<Solution>, st: RunState, pops: seq<seq<Solution>>)
    requires PositiveWeights(inst) && AllFit(inst, initial) && Invariant(inst, cfg, st)
    requires |pops| > 0 ==> pops[0] == RepairPass(inst, initial)
    requires Trajectory(inst, pops, st.diversityHistory, st.bestFitness)
    ensures st.best.Some? ==>
      Fits(inst, st.best.value) && Feasible(inst, st.best.value) && Value(inst, st.best.value) == st.bestFitness
    ensures |pops| > 0 ==> forall k :: 0 <= k < |initial| ==> Fitness(inst, Repair(inst, initial[k])) <= st.bestFitness
  {
    if st.best.Some? {
      FitnessCharacterization(inst, st.best.value);
    }
    if |pops| > 0 {
      assert forall k :: 0 <= k < |initial| ==> pops[0][k] == Repair(inst, initial[k]);
    }
  }

  /** main_knapsack_mbo: the initial population is repaired, the loop variables start empty,
      and one generation runs per element of the draws, so max_generations = |draws|. A run
      of zero generations returns no solution and empty histories; a population of 0 fails
      in max() and one of 1 to 4 in tournament selection, both in the first generation; from
      5 individuals on, fewer than two items fail in crossover, where the cut range is empty,
      and with at least two items every generation succeeds. On success the
      fitness history has one entry per generation, never decreases and ends at the best
      fitness, and the best solution, recorded exactly when that fitness is positive, is
      feasible and worth it. The ghost pops is a sequence of fitting populations starting
      from the repaired initial one, one per generation: entry g of the diversity history is
      the diversity of population g, entry g of the fitness history bounds every individual of
      population g, and the best solution is one of them. How each population follows from
      the one before is stated per generation by Advance and Generation, not here. */
  method MainKnapsackMbo(inst: Instance, cfg: Config, initial: seq<Solution>, draws: seq<Draws>)
    returns (r: Result<Outcome>, ghost pops: seq<seq<Solution>>)
    requires |inst.values| == |inst.weights| && PositiveWeights(inst)
    requires |initial| == cfg.popSize && AllFit(inst, initial)
    requires forall g :: 0 <= g < |draws| ==> ValidDraws(inst, cfg, draws[g])
    ensures r.Success? ==> |r.value.fitnessHistory| == |draws| == |r.value.diversityHistory|
    ensures r.Success? ==> NonDecreasing(r.value.fitnessHistory)
    ensures r.Success? ==> forall g :: 0 <= g < |draws| ==> 0 <= r.value.fitnessHistory[g] <= r.value.bestFitness
    ensures r.Success? && |draws| > 0 ==> r.value.fitnessHistory[|draws| - 1] == r.value.bestFitness
    ensures r.Success? ==> (r.value.best.Some? <==> r.value.bestFitness > 0)
    ensures r.Success? && r.value.best.Some? ==>
      Fits(inst, r.value.best.value) && Feasible(inst, r.value.best.value) && Value(inst, r.value.best.value) == r.value.bestFitness
    ensures r.Success? && |draws| > 0 ==>
      forall k :: 0 <= k < |initial| ==> Fitness(inst, Repair(inst, initial[k])) <= r.value.bestFitness
    ensures |draws| == 0 ==> r == Success(Outcome(None, 0, [], []))
    ensures |draws| > 0 && cfg.popSize < TournamentSize ==>
      r == Failure(if cfg.popSize == 0 then EmptySequence else SampleLargerThanPopulation)
    ensures cfg.popSize >= TournamentSize && |inst.values| >= 2 ==> r.Success?
    ensures |draws| > 0 && cfg.popSize >= TournamentSize && |inst.values| < 2 ==> r == Failure(EmptyCutRange)
    ensures r.Success? ==> |pops| == |draws|
    ensures r.Success? && |draws| > 0 ==> pops[0] == RepairPass(inst, initial)
    ensures r.Success? ==> Trajectory(inst, pops, r.value.diversityHistory, r.value.bestFitness)
    ensures r.Success? ==> BestSoFar(inst, pops, r.value.fitnessHistory, r.value.best)
  {
    var run;
    run, pops := Evolve(inst, cfg, initial, draws);
    if run.Failure? {
      r := Failure(run.error);
      return;
    }
    var st := run.value;
    RunOutcome(inst, cfg, initial, st, pops);
    r := Success(Outcome(st.best, st.bestFitness, st.fitnessHistory, st.diversityHistory));
  }
}

=== FILE: knapsack.dfy ===
/** Items, solutions and the fitness evaluator of the 0-1 knapsack engine. */
module Knapsack {

  /** A solution: bit i is true when item i is selected. */
  type Solution = seq<bool>

  /** The problem instance: parallel value and weight sequences and the capacity. */
  datatype Instance = Instance(values: seq<int>, weights: seq<int>, capacity: int)

  /** The solution has one bit per item, and values and weights are parallel. */
  predicate Fits(inst: Instance, s: Solution) {
    |inst.values| == |s| && |inst.weights| == |s|
  }

  predicate AllFit(inst: Instance, pop: seq<Solution>) {
    forall k :: 0 <= k < |pop| ==> Fits(inst, pop[k])
  }

  /** Item weights are positive, as the value/weight ratio of the repair operator needs. */
  predicate PositiveWeights(inst: Instance) {
    forall i :: 0 <= i < |inst.weights| ==> inst.weights[i] > 0
  }

  predicate NonNegative(xs: seq<int>) {
    forall i :: 0 <= i < |xs| ==> xs[i] >= 0
  }

  /** What item x contributes to a sum when its bit is b. */
  function Contribution(x: int, b: bool): int {
    if b then x else 0
  }

  /** Sum of xs[i] over the selected positions i of s. */
  function SelectedSum(xs: seq<int>, s: Solution): int
    requires |xs| == |s|
    decreases |s|
  {
    if |s| == 0 then 0
    else SelectedSum(xs[..|s| - 1], s[..|s| - 1]) + Contribution(xs[|s| - 1], s[|s| - 1])
  }

  function Value(inst: Instance, s: Solution): int
    requires Fits(inst, s)
  {
    SelectedSum(inst.values, s)
  }

  function Weight(inst: Instance, s: Solution): int
    requires Fits(inst, s)
  {
    SelectedSum(inst.weights, s)
  }

  predicate Feasible(inst: Instance, s: Solution)
    requires Fits(inst, s)
  {
    Weight(inst, s) <= inst.capacity
  }

  /** Total value when the selection is within capacity, else zero: no partial credit. */
  function Fitness(inst: Instance, s: Solution): int
    requires Fits(inst, s)
  {
    if Weight(inst, s) > inst.capacity then 0 else Value(inst, s)
  }

  /** The fitness of every individual, in population order; a non-zero score certifies that
      its individual is within capacity and scores its full value. */
  function FitnessAll(inst: Instance, pop: seq<Solution>): (fits: seq<int>)
    requires AllFit(inst, pop)
    ensures |fits| == |pop|
    ensures forall k :: 0 <= k < |pop| && fits[k] != 0 ==> Feasible(inst, pop[k]) && fits[k] == Value(inst, pop[k])
    ensures forall k :: 0 <= k < |pop| ==> fits[k] == Fitness(inst, pop[k])
  {
    seq(|pop|, k requires 0 <= k < |pop| => Fitness(inst, pop[k]))
  }

  /** Changing one bit changes the selected sum by exactly that item's contribution. */
  lemma {:induction false} SumUpdate(xs: seq<int>, s: Solution, i: int, b: bool)
    requires |xs| == |s| && 0 <= i < |s|
    ensures SelectedSum(xs, s[i := b])
            == SelectedSum(xs, s) - Contribution(xs[i], s[i]) + Contribution(xs[i], b)
    decreases |s|
  {
    var n := |s| - 1;
    if i == n {
      assert s[i := b][..n] == s[..n];
    } else {
      assert s[i := b][..n] == s[..n][i := b];
      SumUpdate(xs[..n], s[..n], i, b);
    }
  }

  /** A solution selecting nothing sums to zero. */
  lemma {:induction false} SumOfNothing(xs: seq<int>, s: Solution)
    requires |xs| == |s|
    requires forall i :: 0 <= i < |s| ==> !s[i]
    ensures SelectedSum(xs, s) == 0
    decreases |s|
  {
    if |s| > 0 {
      SumOfNothing(xs[..|s| - 1], s[..|s| - 1]);
    }
  }

  /** With non-negative entries, selecting more never lowers the sum. */
  lemma {:induction false} SumMonotone(xs: seq<int>, s: Solution, t: Solution)
    requires |xs| == |s| == |t| && NonNegative(xs)
    requires forall i :: 0 <= i < |s| ==> s[i] ==> t[i]
    ensures SelectedSum(xs, s) <= SelectedSum(xs, t)
    decreases |s|
  {
    if |s| > 0 {
      var n := |s| - 1;
      SumMonotone(xs[..n], s[..n], t[..n]);
    }
  }

  /** With non-negative entries, a selected sum lies between zero and the sum of all entries. */
  lemma SumBounds(xs: seq<int>, s: Solution)
    requires |xs| == |s| && NonNegative(xs)
    ensures 0 <= SelectedSum(xs, s) <= SelectedSum(xs, seq(|s|, _ => true))
  {
    var none := seq(|s|, _ => false);
    SumOfNothing(xs, none);
    SumMonotone(xs, none, s);
    SumMonotone(xs, s, seq(|s|, _ => true));
  }

  /** Fitness is the value when the selection fits, and a non-zero fitness certifies that it
      fits; with non-negative values fitness lies between 0 and the value. */
  lemma FitnessCharacterization(inst: Instance, s: Solution)
    requires Fits(inst, s)
    ensures Feasible(inst, s) ==> Fitness(inst, s) == Value(inst, s)
    ensures Fitness(inst, s) != 0 ==> Feasible(inst, s) && Fitness(inst, s) == Value(inst, s)
    ensures NonNegative(inst.values) ==> 0 <= Fitness(inst, s) <= Value(inst, s)
  {
    if NonNegative(inst.values) {
      SumBounds(inst.values, s);
    }
  }

  /** The empty selection weighs nothing, so it is feasible for every capacity >= 0 and scores 0. */
  lemma EmptySelectionFeasible(inst: Instance, s: Solution)
    requires Fits(inst, s) && inst.capacity >= 0
    requires forall i :: 0 <= i < |s| ==> !s[i]
    ensures Weight(inst, s) == 0 && Feasible(inst, s) && Fitness(inst, s) == 0
  {
    SumOfNothing(inst.weights, s);
    SumOfNothing(inst.values, s);
  }

  /** The three-item instance of the unit tests. */
  function ExampleInstance(): Instance {
    Instance([60, 100, 120], [10, 20, 30], 50)
  }

  /** Items 0 and 2 fit (weight 40) and score 180; all three weigh 60 > 50 and score 0. */
  lemma FitnessExamples()
    ensures Fitness(ExampleInstance(), [true, false, true]) == 180
    ensures Fitness(ExampleInstance(), [true, true, true]) == 0
    ensures Fitness(ExampleInstance(), [false, true, true]) == 220
  {
    var inst := ExampleInstance();
    assert [true, false, true][..2] == [true, false];
    assert [true, false][..1] == [true];
    assert [true, true, true][..2] == [true, true];
    assert [true, true][..1] == [true];
    assert [false, true, true][..2] == [false, true];
    assert [false, true][..1] == [false];
    assert inst.values[..2] == [60, 100] && inst.values[..2][..1] == [60];
    assert inst.weights[..2] == [10, 20] && inst.weights[..2][..1] == [10];
    assert SelectedSum([60], [true]) == 60 && SelectedSum([10], [true]) == 10;
    assert SelectedSum([60], [false]) == 0 && SelectedSum([10], [false]) == 0;
    assert SelectedSum([60, 100], [true, false]) == 60;
    assert SelectedSum([10, 20], [true, false]) == 10;
    assert SelectedSum([60, 100], [true, true]) == 160;
    assert SelectedSum([10, 20], [true, true]) == 30;
    assert SelectedSum([60, 100], [false, true]) == 100;
    assert SelectedSum([10, 20], [false, true]) == 20;
  }
}

=== FILE: local_search.dfy ===
/** The local search improver: one greedy left-to-right pass that adds items. */
module LocalSearchImprover {
  import opened Knapsack

  /** The pass from position i on, with the running value and weight of s. An unselected
      item is added when it keeps the weight within capacity and strictly raises the value. */
  function Improve(inst: Instance, s: Solution, i: nat, value: int, weight: int): (r: Solution)
    requires Fits(inst, s) && i <= |s|
    ensures Fits(inst, r)
    ensures forall k :: 0 <= k < |s| ==> s[k] ==> r[k]
    decreases |s| - i
  {
    if i == |s| then s
    else if !s[i] && weight + inst.weights[i] <= inst.capacity && value + inst.values[i] > value then
      Improve(inst, s[i := true], i + 1, value + inst.values[i], weight + inst.weights[i])
    else
      Improve(inst, s, i + 1, value, weight)
  }

  function LocalSearch(inst: Instance, s: Solution): (r: Solution)
    requires Fits(inst, s)
    ensures Fits(inst, r)
    ensures forall k :: 0 <= k < |s| ==> s[k] ==> r[k]
  {
    Improve(inst, s, 0, Value(inst, s), Weight(inst, s))
  }

  /** No single unselected item of positive value can still be added from position i on. */
  ghost predicate NoAdditionFrom(inst: Instance, r: Solution, i: nat)
    requires Fits(inst, r)
  {
    forall j :: i <= j < |r| && !r[j] && inst.values[j] > 0 ==> Weight(inst, r) + inst.weights[j] > inst.capacity
  }

  lemma {:induction false} ImproveSpec(inst: Instance, s: Solution, i: nat, value: int, weight: int)
    requires Fits(inst, s) && i <= |s|
    requires value == Value(inst, s) && weight == Weight(inst, s)
    ensures var r := Improve(inst, s, i, value, weight);
      && (forall k :: 0 <= k < i ==> r[k] == s[k])
      && Value(inst, r) >= value
      && (weight <= inst.capacity ==> Weight(inst, r) <= inst.capacity)
      && (NonNegative(inst.weights) ==> Weight(inst, r) >= weight && NoAdditionFrom(inst, r, i))
    decreases |s| - i
  {
    if i < |s| {
      if !s[i] && weight + inst.weights[i] <= inst.capacity && value + inst.values[i] > value {
        var s' := s[i := true];
        SumUpdate(inst.values, s, i, true);
        SumUpdate(inst.weights, s, i, true);
        ImproveSpec(inst, s', i + 1, value + inst.values[i], weight + inst.weights[i]);
      } else {
        ImproveSpec(inst, s, i + 1, value, weight);
      }
    }
  }

  /** Local search keeps every selected item, never lowers the value, keeps a feasible
      selection feasible (so never lowers its fitness), and, for non-negative weights,
      ends where no single item of positive value can be added within capacity. */
  lemma LocalSearchSpec(inst: Instance, s: Solution)
    requires Fits(inst, s)
    ensures var r := LocalSearch(inst, s);
      && Value(inst, r) >= Value(inst, s)
      && (Feasible(inst, s) ==> Feasible(inst, r) && Fitness(inst, r) >= Fitness(inst, s))
      && (NonNegative(inst.weights) ==> NoAdditionFrom(inst, r, 0))
  {
    ImproveSpec(inst, s, 0, Value(inst, s), Weight(inst, s));
  }
}

=== FILE: migration.dfy ===
/** The migration operator: split the population in two halves and recombine pairs by
    single-point crossover. The random cut points are supplied by the caller. */
module Migration {
  import opened Knapsack
  import opened Results

  /** The first floor(n/2) individuals and the remaining ones. */
  function Split(pop: seq<Solution>): (halves: (seq<Solution>, seq<Solution>))
    ensures halves.0 + halves.1 == pop
    ensures |halves.0| == |pop| / 2
    ensures |halves.1| == |halves.0| || |halves.1| == |halves.0| + 1
  {
    (pop[..|pop| / 2], pop[|pop| / 2..])
  }

  /** The cut point is one a draw from [1, n - 1] can yield, whenever that range is non-empty
      and the parents agree in length. */
  predicate ValidCut(p1: Solution, p2: Solution, point: int) {
    |p1| == |p2| && |p1| >= 2 ==> 1 <= point < |p1|
  }

  /** Parents that crossover accepts: equal length, and a non-empty range of cut points. */
  predicate Crossable(p1: Solution, p2: Solution) {
    |p1| == |p2| && |p1| >= 2
  }

  /** Exchanges the tails of the parents at the cut point. Parents of different length
      fail; so do parents of length below 2, whose cut range [1, n - 1] is empty. */
  function Crossover(p1: Solution, p2: Solution, point: int): (r: Result<(Solution, Solution)>)
    requires ValidCut(p1, p2, point)
    ensures r.Success? <==> Crossable(p1, p2)
    ensures |p1| != |p2| ==> r == Failure(ParentsDifferInLength)
    ensures r.Success? ==>
      && |r.value.0| == |p1| && |r.value.1| == |p1|
      && (forall i :: 0 <= i < |p1| ==> r.value.0[i] == (if i < point then p1[i] else p2[i]))
      && (forall i :: 0 <= i < |p1| ==> r.value.1[i] == (if i < point then p2[i] else p1[i]))
  {
    if |p1| != |p2| then Failure(ParentsDifferInLength)
    else if |p1| < 2 then Failure(EmptyCutRange)
    else Success((p1[..point] + p2[point..], p2[..point] + p1[point..]))
  }

  /** Each child starts like one parent and ends like the other, at every position the two
      children hold the two parents' bits between them, and crossing the children again at
      the same point gives back the parents. */
  lemma CrossoverSpec(p1: Solution, p2: Solution, point: int)
    requires Crossable(p1, p2) && ValidCut(p1, p2, point)
    ensures var r := Crossover(p1, p2, point);
      && r.Success?
      && r.value.0[0] == p1[0] && r.value.0[|p1| - 1] == p2[|p1| - 1]
      && r.value.1[0] == p2[0] && r.value.1[|p1| - 1] == p1[|p1| - 1]
      && (forall i :: 0 <= i < |p1| ==> multiset{r.value.0[i], r.value.1[i]} == multiset{p1[i], p2[i]})
      && Crossover(r.value.0, r.value.1, point) == Success((p1, p2))
  {
    var r := Crossover(p1, p2, point);
    var back := Crossover(r.value.0, r.value.1, point);
    assert back.value.0 == p1;
    assert back.value.1 == p2;
  }

  /** Crossover of a[i] with b[i mod |b|] for every i from k on, children appended in pairs. */
  function CrossPairs(a: seq<Solution>, b: seq<Solution>, cuts: seq<int>, k: nat): (r: Result<seq<Solution>>)
    requires k <= |a| && (|a| > 0 ==> |b| > 0) && |cuts| >= |a|
    requires forall i :: k <= i < |a| ==> ValidCut(a[i], b[i % |b|], cuts[i])
    ensures r.Success? <==> forall i :: k <= i < |a| ==> Crossable(a[i], b[i % |b|])
    ensures r.Success? ==> |r.value| == 2 * (|a| - k)
    ensures r.Failure? && (forall i :: k <= i < |a| ==> |a[i]| == |b[i % |b|]|) ==> r.error == EmptyCutRange
    ensures r.Success? ==> forall i :: k <= i < |a| ==>
      Crossover(a[i], b[i % |b|], cuts[i]) == Success((r.value[2 * (i - k)], r.value[2 * (i - k) + 1]))
    decreases |a| - k
  {
    if k == |a| then Success([])
    else
      var children :- Crossover(a[k], b[k % |b|], cuts[k]);
      var rest :- CrossPairs(a, b, cuts, k + 1);
      Success([children.0, children.1] + rest)
  }

  /** Crossover of individual i of the first half with individual i of the second; an odd
      population's last individual, never paired, is carried over unchanged. */
  function Migrate(pop: seq<Solution>, cuts: seq<int>): (r: Result<seq<Solution>>)
    requires |cuts| >= |pop| / 2
    requires forall i :: 0 <= i < |pop| / 2 ==> ValidCut(pop[i], pop[|pop| / 2 + i], cuts[i])
    ensures r.Success? <==> forall i :: 0 <= i < |pop| / 2 ==> Crossable(pop[i], pop[|pop| / 2 + i])
    ensures r.Success? ==> |r.value| == |pop|
    ensures r.Success? && |pop| % 2 == 1 ==> r.value[|pop| - 1] == pop[|pop| - 1]
    ensures r.Failure? && (forall i :: 0 <= i < |pop| / 2 ==> |pop[i]| == |pop[|pop| / 2 + i]|) ==> r.error == EmptyCutRange
  {
    var (a, b) := Split(pop);
    HalvesPairUp(pop, a, b);
    var children :- CrossPairs(a, b, cuts, 0);
    Success(children + (if |pop| % 2 != 0 then [pop[|pop| - 1]] else []))
  }

  /** Since the first half is never longer than the second, pair i of the migration is
      individual i with individual floor(n/2) + i: the modulus never wraps. */
  lemma HalvesPairUp(pop: seq<Solution>, a: seq<Solution>, b: seq<Solution>)
    requires (a, b) == Split(pop)
    ensures forall i :: 0 <= i < |a| ==> i % |b| == i && a[i] == pop[i] && b[i % |b|] == pop[|pop| / 2 + i]
  {
    forall i | 0 <= i < |a|
      ensures i % |b| == i
    {
      ModBelow(i, |b|);
    }
  }

  lemma ModBelow(i: nat, m: nat)
    requires i < m
    ensures i % m == i
  {
  }

  /** Children 2i and 2i+1 of a successful migration are the crossover of individual i
      with individual floor(n/2) + i at the i-th cut point. */
  lemma MigratePairs(pop: seq<Solution>, cuts: seq<int>)
    requires |cuts| >= |pop| / 2
    requires forall i :: 0 <= i < |pop| / 2 ==> ValidCut(pop[i], pop[|pop| / 2 + i], cuts[i])
    requires Migrate(pop, cuts).Success?
    ensures forall i :: 0 <= i < |pop| / 2 ==>
      Crossover(pop[i], pop[|pop| / 2 + i], cuts[i])
        == Success((Migrate(pop, cuts).value[2 * i], Migrate(pop, cuts).value[2 * i + 1]))
  {
    var (a, b) := Split(pop);
    HalvesPairUp(pop, a, b);
    var children := CrossPairs(a, b, cuts, 0).value;
    assert Migrate(pop, cuts).value[..|children|] == children;
  }

  /** Solutions of one length n >= 2 always migrate. */
  lemma MigrateSucceeds(pop: seq<Solution>, cuts: seq<int>, n: nat)
    requires n >= 2 && forall k :: 0 <= k < |pop| ==> |pop[k]| == n
    requires |cuts| >= |pop| / 2
    requires forall i :: 0 <= i < |pop| / 2 ==> 1 <= cuts[i] < n
    ensures Migrate(pop, cuts).Success?
  {
  }

  /** Solutions of one length below 2 never migrate once there is a pair to cross: the cut
      range [1, n - 1] is empty. */
  lemma MigrateNeedsTwoBits(pop: seq<Solution>, cuts: seq<int>, n: nat)
    requires n < 2 && |pop| >= 2 && forall k :: 0 <= k < |pop| ==> |pop[k]| == n
    requires |cuts| >= |pop| / 2
    ensures Migrate(pop, cuts) == Failure(EmptyCutRange)
  {
    assert !Crossable(pop[0], pop[|pop| / 2]);
  }

  /** Children 2i and 2i+1 have their parents' length. */
  lemma ChildrenLengths(pop: seq<Solution>, cuts: seq<int>, n: nat)
    requires forall k :: 0 <= k < |pop| ==> |pop[k]| == n
    requires |cuts| >= |pop| / 2
    requires forall i :: 0 <= i < |pop| / 2 ==> ValidCut(pop[i], pop[|pop| / 2 + i], cuts[i])
    requires Migrate(pop, cuts).Success?
    ensures forall i :: 0 <= i < |pop| / 2 ==>
      |Migrate(pop, cuts).value[2 * i]| == n && |Migrate(pop, cuts).value[2 * i + 1]| == n
  {
    MigratePairs(pop, cuts);
  }

  /** Migrating solutions of one length n yields solutions of length n. */
  lemma MigrateLengths(pop: seq<Solution>, cuts: seq<int>, n: nat)
    requires forall k :: 0 <= k < |pop| ==> |pop[k]| == n
    requires |cuts| >= |pop| / 2
    requires forall i :: 0 <= i < |pop| / 2 ==> n >= 2 ==> 1 <= cuts[i] < n
    requires Migrate(pop, cuts).Success?
    ensures forall k :: 0 <= k < |pop| ==> |Migrate(pop, cuts).value[k]| == n
  {
    var r := Migrate(pop, cuts).value;
    var half := |pop| / 2;
    ChildrenLengths(pop, cuts, n);
    forall k | 0 <= k < |pop|
      ensures |r[k]| == n
    {
      var i := k / 2;
      if i < half {
        assert k == 2 * i || k == 2 * i + 1;
      } else {
        assert |pop| % 2 == 1 && k == |pop| - 1;
      }
    }
  }
}

=== FILE: mutation.dfy ===
/** The mutation operator and the offspring pipeline mutate, repair, local search.
    The uniform draws of random.random(), one per bit, are supplied as coins. */
module Mutation {
  import opened Knapsack
  import opened RepairOperator
  import opened LocalSearchImprover
  import opened DiversityTracker

  /** Bit i flips when its coin falls below the mutation rate. */
  function Mutate(s: Solution, coins: seq<real>, rate: real): (r: Solution)
    requires |coins| == |s|
    ensures |r| == |s|
    ensures forall i :: 0 <= i < |s| ==> (r[i] != s[i] <==> coins[i] < rate)
  {
    seq(|s|, i requires 0 <= i < |s| => if coins[i] < rate then !s[i] else s[i])
  }

  /** How many coins fall below the rate. */
  function FlipCount(coins: seq<real>, rate: real): nat {
    if |coins| == 0 then 0
    else (if coins[0] < rate then 1 else 0) + FlipCount(coins[1..], rate)
  }

  /** Mutation moves a solution exactly as far as the number of coins below the rate. */
  lemma {:induction false} MutateDistance(s: Solution, coins: seq<real>, rate: real)
    requires |coins| == |s|
    ensures Hamming(s, Mutate(s, coins, rate)) == FlipCount(coins, rate)
  {
    if |s| > 0 {
      assert Mutate(s, coins, rate)[1..] == Mutate(s[1..], coins[1..], rate);
      MutateDistance(s[1..], coins[1..], rate);
    }
  }

  /** The same coins and rate undo a mutation. */
  lemma MutateInvolution(s: Solution, coins: seq<real>, rate: real)
    requires |coins| == |s|
    ensures Mutate(Mutate(s, coins, rate), coins, rate) == s
  {
  }

  /** With every coin in [0, 1): a rate of at most 0 flips nothing, a rate above 1 flips
      every bit. */
  lemma MutateExtremes(s: Solution, coins: seq<real>, rate: real)
    requires |coins| == |s|
    requires forall i :: 0 <= i < |coins| ==> 0.0 <= coins[i] < 1.0
    ensures rate <= 0.0 ==> Mutate(s, coins, rate) == s
    ensures rate >= 1.0 ==> forall i :: 0 <= i < |s| ==> Mutate(s, coins, rate)[i] == !s[i]
  {
  }

  /** One offspring: mutate, repair, then local search. */
  function Offspring(inst: Instance, s: Solution, coins: seq<real>, rate: real): (r: Solution)
    requires Fits(inst, s) && PositiveWeights(inst) && |coins| == |s|
    ensures Fits(inst, r)
    ensures inst.capacity >= 0 ==> Feasible(inst, r)
  {
    var mutated := Mutate(s, coins, rate);
    var repaired := Repair(inst, mutated);
    RepairThenSearchFits(inst, mutated);
    LocalSearch(inst, repaired)
  }

  lemma RepairThenSearchFits(inst: Instance, s: Solution)
    requires Fits(inst, s) && PositiveWeights(inst)
    ensures inst.capacity >= 0 ==> Feasible(inst, LocalSearch(inst, Repair(inst, s)))
  {
    if inst.capacity >= 0 {
      RepairSpec(inst, s);
      LocalSearchSpec(inst, Repair(inst, s));
    }
  }

  /** The offspring of every individual, in order; for a non-negative capacity all of them
      fit, so the repair pass the orchestrator applies afterwards changes none of them. */
  function MutateAndSearch(inst: Instance, pop: seq<Solution>, rate: real, coins: seq<seq<real>>): (r: seq<Solution>)
    requires AllFit(inst, pop) && PositiveWeights(inst)
    requires |coins| >= |pop| && forall k :: 0 <= k < |pop| ==> |coins[k]| == |pop[k]|
    ensures |r| == |pop| && AllFit(inst, r)
    ensures inst.capacity >= 0 ==> forall k :: 0 <= k < |r| ==> Feasible(inst, r[k]) && Repair(inst, r[k]) == r[k]
  {
    seq(|pop|, k requires 0 <= k < |pop| => Offspring(inst, pop[k], coins[k], rate))
  }
}

=== FILE: repair.dfy ===
/** The repair operator: greedy removal of the lowest value/weight-ratio items. */
module RepairOperator {
  import opened Knapsack
  import opened Sorting

  /** Item i is dropped before item j: its ratio values[i]/weights[i] is smaller, or the
      ratios are equal and i is the smaller index (the order of sorting (ratio, index)
      pairs). Ratios are compared by cross-multiplication, exact for positive weights. */
  predicate RemovedBefore(inst: Instance, i: nat, j: nat) {
    if i < |inst.values| && j < |inst.values| && |inst.weights| == |inst.values| then
      var lhs := inst.values[i] * inst.weights[j];
      var rhs := inst.values[j] * inst.weights[i];
      lhs < rhs || (lhs == rhs && i < j)
    else false
  }

  function RatioOrder(inst: Instance): (nat, nat) -> bool {
    (i: nat, j: nat) => RemovedBefore(inst, i, j)
  }

  /** Cross-multiplied comparison of positive-denominator fractions is transitive,
      and strict as soon as one of the two steps is. */
  lemma CrossTransitive(va: int, wa: int, vb: int, wb: int, vc: int, wc: int)
    requires wa > 0 && wb > 0 && wc > 0
    requires va * wb <= vb * wa && vb * wc <= vc * wb
    ensures va * wc <= vc * wa
    ensures (va * wb < vb * wa || vb * wc < vc * wb) ==> va * wc < vc * wa
  {
    assert (va * wb) * wc <= (vb * wa) * wc;
    assert (vb * wc) * wa <= (vc * wb) * wa;
    assert (va * wb) * wc == wb * (va * wc);
    assert (vb * wa) * wc == (vb * wc) * wa;
    assert (vc * wb) * wa == wb * (vc * wa);
    if (va * wb < vb * wa || vb * wc < vc * wb) {
      if va * wb < vb * wa {
        assert (va * wb) * wc < (vb * wa) * wc;
      } else {
        assert (vb * wc) * wa < (vc * wb) * wa;
      }
      assert wb * (va * wc) < wb * (vc * wa);
    }
  }

  /** Over item indices, the removal order is a strict total order. */
  lemma RatioOrderTotal(inst: Instance, xs: seq<nat>)
    requires |inst.values| == |inst.weights| && PositiveWeights(inst)
    requires forall x :: x in xs ==> x < |inst.values|
    ensures TotalOn(RatioOrder(inst), xs)
  {
    var lt := RatioOrder(inst);
    forall x, y, z | x in xs && y in xs && z in xs && lt(x, y) && lt(y, z)
      ensures lt(x, z)
    {
      var v, w := inst.values, inst.weights;
      CrossTransitive(v[x], w[x], v[y], w[y], v[z], w[z]);
    }
  }

  /** The selected item indices, in increasing order. */
  function SelectedItems(s: Solution): (r: seq<nat>)
    ensures Distinct(r)
    ensures forall i: nat :: i in r <==> i < |s| && s[i]
    decreases |s|
  {
    if |s| == 0 then []
    else
      var n := |s| - 1;
      var front := SelectedItems(s[..n]);
      assert forall i: nat :: i in front ==> i < n;
      assert n !in front;
      front + (if s[n] then [n] else [])
  }

  /** The selected items in the order repair drops them. */
  function RemovalOrder(inst: Instance, s: Solution): (order: seq<nat>)
    requires Fits(inst, s) && PositiveWeights(inst)
    ensures Sorted(order, RatioOrder(inst)) && Distinct(order)
    ensures forall i: nat :: i in order <==> i < |s| && s[i]
    ensures forall k :: 0 <= k < |order| ==> order[k] < |s| && s[order[k]]
  {
    var items := SelectedItems(s);
    RatioOrderTotal(inst, items);
    SortSorted(items, RatioOrder(inst));
    var order := Sort(items, RatioOrder(inst));
    assert forall k :: 0 <= k < |order| ==> order[k] in order;
    order
  }

  /** The removal loop: clear the next item, subtract its weight, stop once it fits. */
  function Strip(inst: Instance, s: Solution, order: seq<nat>, total: int): (r: Solution)
    requires Fits(inst, s)
    requires forall k :: 0 <= k < |order| ==> order[k] < |s|
    ensures |r| == |s|
    ensures forall i :: 0 <= i < |s| ==> r[i] ==> s[i]
    decreases |order|
  {
    if |order| == 0 then s
    else
      var i := order[0];
      var cleared := s[i := false];
      var rest := total - inst.weights[i];
      if rest <= inst.capacity then cleared
      else Strip(inst, cleared, order[1..], rest)
  }

  /** Returns the solution unchanged when it fits; otherwise drops selected items in
      ascending ratio order until it does. */
  function Repair(inst: Instance, s: Solution): (r: Solution)
    requires Fits(inst, s) && PositiveWeights(inst)
    ensures Fits(inst, r)
    ensures forall i :: 0 <= i < |s| ==> r[i] ==> s[i]
    ensures Feasible(inst, s) ==> r == s
  {
    var total := Weight(inst, s);
    if total <= inst.capacity then s
    else Strip(inst, s, RemovalOrder(inst, s), total)
  }

  /** Every item repair dropped comes before every selected item it kept. */
  ghost predicate DropsLowestFirst(inst: Instance, s: Solution, r: Solution)
    requires |r| == |s|
  {
    forall i, j :: 0 <= i < |s| && 0 <= j < |s| && s[i] && !r[i] && r[j] ==> RemovedBefore(inst, i, j)
  }

  /** Putting back the last item dropped would overflow the capacity again: repair stops
      at the first feasible point of its removal order. */
  ghost predicate StopsAtFirstFit(inst: Instance, s: Solution, r: Solution)
    requires Fits(inst, s) && |r| == |s|
  {
    exists m :: 0 <= m < |s| && s[m] && !r[m]
      && Weight(inst, r) + inst.weights[m] > inst.capacity
      && forall i :: 0 <= i < |s| && s[i] && !r[i] ==> i == m || RemovedBefore(inst, i, m)
  }

  /** What the removal loop keeps true from one step to the next: s0 is the input, s the
      current selection, order the items still to consider. */
  ghost predicate StripInvariant(inst: Instance, s0: Solution, s: Solution, order: seq<nat>)
  {
    && Fits(inst, s0) && |s| == |s0|
    && (forall k :: 0 <= k < |order| ==> order[k] < |s|)
    && Sorted(order, RatioOrder(inst)) && Distinct(order)
    && (forall i :: 0 <= i < |s| ==> (s[i] <==> i in order))
    && (forall i :: 0 <= i < |s| ==> s[i] ==> s0[i])
    && (forall i, k :: 0 <= i < |s| && s0[i] && !s[i] && 0 <= k < |order| ==> RemovedBefore(inst, i, order[k]))
  }

  /** The step that makes the selection fit ends the loop with both greedy properties. */
  lemma StripLastStep(inst: Instance, s0: Solution, s: Solution, order: seq<nat>, total: int)
    requires StripInvariant(inst, s0, s, order) && |order| > 0
    requires total == Weight(inst, s) > inst.capacity
    requires total - inst.weights[order[0]] <= inst.capacity
    ensures var r := s[order[0] := false];
      && Feasible(inst, r)
      && DropsLowestFirst(inst, s0, r)
      && StopsAtFirstFit(inst, s0, r)
  {
    var i := order[0];
    var r := s[i := false];
    assert i in order;
    SumUpdate(inst.weights, s, i, false);
    forall a, b | 0 <= a < |s0| && 0 <= b < |s0| && s0[a] && !r[a] && r[b]
      ensures RemovedBefore(inst, a, b)
    {
      assert b in order;
      var k :| 0 <= k < |order| && order[k] == b;
      assert k != 0;
      if a == i {
        assert RatioOrder(inst)(order[0], order[k]);
      }
    }
    assert s0[i] && !r[i] && Weight(inst, r) + inst.weights[i] > inst.capacity;
  }

  /** A step that leaves the selection overweight keeps the invariant for the rest of the order. */
  lemma StripNextStep(inst: Instance, s0: Solution, s: Solution, order: seq<nat>)
    requires StripInvariant(inst, s0, s, order) && |order| > 0
    ensures StripInvariant(inst, s0, s[order[0] := false], order[1..])
  {
    var i := order[0];
    var cleared := s[i := false];
    var tail := order[1..];
    assert i in order;
    forall a | 0 <= a < |cleared|
      ensures cleared[a] <==> a in tail
    {
      if a in tail {
        var k :| 0 <= k < |tail| && tail[k] == a;
        assert order[k + 1] == a;
      }
      if a in order && a != i {
        var k :| 0 <= k < |order| && order[k] == a;
        assert k != 0;
        assert tail[k - 1] == a;
      }
    }
    forall a, k | 0 <= a < |cleared| && s0[a] && !cleared[a] && 0 <= k < |tail|
      ensures RemovedBefore(inst, a, tail[k])
    {
      assert tail[k] == order[k + 1];
      if a == i {
        assert RatioOrder(inst)(order[0], order[k + 1]);
      }
    }
  }

  lemma {:induction false} StripSpec(inst: Instance, s0: Solution, s: Solution, order: seq<nat>, total: int)
    requires StripInvariant(inst, s0, s, order) && PositiveWeights(inst) && inst.capacity >= 0
    requires total == Weight(inst, s) > inst.capacity
    ensures var r := Strip(inst, s, order, total);
      && Feasible(inst, r)
      && DropsLowestFirst(inst, s0, r)
      && StopsAtFirstFit(inst, s0, r)
    decreases |order|
  {
    if |order| == 0 {
      SumOfNothing(inst.weights, s);
      assert false;
    }
    var i := order[0];
    var rest := total - inst.weights[i];
    if rest <= inst.capacity {
      assert Strip(inst, s, order, total) == s[i := false];
      StripLastStep(inst, s0, s, order, total);
    } else {
      assert Strip(inst, s, order, total) == Strip(inst, s[i := false], order[1..], rest);
      assert i in order;
      SumUpdate(inst.weights, s, i, false);
      StripNextStep(inst, s0, s, order);
      StripSpec(inst, s0, s[i := false], order[1..], rest);
    }
  }

  /** Repair always yields a selection within a non-negative capacity, by dropping the
      lowest-ratio items first and stopping as soon as the selection fits. */
  lemma RepairSpec(inst: Instance, s: Solution)
    requires Fits(inst, s) && PositiveWeights(inst) && inst.capacity >= 0
    ensures var r := Repair(inst, s);
      && Feasible(inst, r)
      && (!Feasible(inst, s) ==> DropsLowestFirst(inst, s, r) && StopsAtFirstFit(inst, s, r))
  {
    var total := Weight(inst, s);
    if total > inst.capacity {
      var order := RemovalOrder(inst, s);
      StripSpec(inst, s, s, order, total);
    }
  }

  /** Repairing twice is repairing once. */
  lemma RepairIdempotent(inst: Instance, s: Solution)
    requires Fits(inst, s) && PositiveWeights(inst) && inst.capacity >= 0
    ensures Repair(inst, Repair(inst, s)) == Repair(inst, s)
  {
    RepairSpec(inst, s);
  }

  lemma ExampleSelectedItems()
    ensures SelectedItems([true, true, true]) == [0, 1, 2]
  {
    var s := [true, true, true];
    assert s[..2] == [true, true] && s[..2][..1] == [true] && s[..2][..1][..0] == [];
    assert SelectedItems([]) == [];
    assert SelectedItems([true]) == [0];
    assert SelectedItems([true, true]) == [0, 1];
  }

  lemma ExampleSortTail()
    ensures Sort([1, 2], RatioOrder(ExampleInstance())) == [2, 1]
  {
    var lt := RatioOrder(ExampleInstance());
    assert lt(2, 1);
    assert [1, 2][1..] == [2] && [2][1..] == [];
    assert Sort([2], lt) == [2];
    assert Insert(1, [2], lt) == [2] + Insert(1, [], lt);
  }

  lemma ExampleInsertHead()
    ensures Insert(0, [2, 1], RatioOrder(ExampleInstance())) == [2, 1, 0]
  {
    var lt := RatioOrder(ExampleInstance());
    assert lt(2, 0) && lt(1, 0);
    assert [2, 1][1..] == [1] && [1][1..] == [];
    assert Insert(0, [1], lt) == [1] + Insert(0, [], lt);
    assert Insert(0, [2, 1], lt) == [2] + Insert(0, [1], lt);
  }

  lemma ExampleSort()
    ensures Sort([0, 1, 2], RatioOrder(ExampleInstance())) == [2, 1, 0]
  {
    ExampleSortTail();
    ExampleInsertHead();
    assert [0, 1, 2][1..] == [1, 2];
  }

  /** On the unit-test instance the three items are dropped in the order 2, 1, 0:
      their ratios are 4, 5 and 6. */
  lemma ExampleRemovalOrder()
    ensures RemovalOrder(ExampleInstance(), [true, true, true]) == [2, 1, 0]
  {
    ExampleSelectedItems();
    ExampleSort();
  }

  lemma ExampleWeights()
    ensures Weight(ExampleInstance(), [true, true, true]) == 60
    ensures Weight(ExampleInstance(), [true, false, true]) == 40
  {
    var w := ExampleInstance().weights;
    assert w[..2] == [10, 20] && w[..2][..1] == [10];
    assert [true, true, true][..2] == [true, true] && [true, true][..1] == [true];
    assert [true, false, true][..2] == [true, false] && [true, false][..1] == [true];
    assert SelectedSum([10], [true]) == 10;
    assert SelectedSum([10, 20], [true, true]) == 30;
    assert SelectedSum([10, 20], [true, false]) == 10;
  }

  lemma ExampleStrip()
    ensures Strip(ExampleInstance(), [true, true, true], [2, 1, 0], 60) == [true, true, false]
  {
    assert [true, true, true][2 := false] == [true, true, false];
  }

  /** [1,1,1] weighs 60 > 50; dropping the lowest-ratio item 2 alone leaves [1,1,0] of
      weight 30, and the feasible [1,0,1] is returned unchanged. */
  lemma RepairExample()
    ensures Repair(ExampleInstance(), [true, true, true]) == [true, true, false]
    ensures Repair(ExampleInstance(), [true, false, true]) == [true, false, true]
  {
    var inst := ExampleInstance();
    ExampleWeights();
    ExampleRemovalOrder();
    ExampleStrip();
  }
}

=== FILE: results.dfy ===
/** Failure-compatible result type used for the Python exceptions the core can raise. */
module Results {

  /** The exceptions the optimisation engine can raise, by their cause. */
  datatype Error =
    | ParentsDifferInLength       // single_point_crossover's own ValueError
    | EmptyCutRange               // random.randint(1, n - 1) with n < 2
    | SampleLargerThanPopulation  // random.sample(range(n), k) with k > n
    | EmptySequence               // max() of an empty sequence

  datatype Option<+T> = None | Some(value: T)

  datatype Result<+T> = Success(value: T) | Failure(error: Error) {

    predicate IsFailure() {
      Failure?
    }

    function PropagateFailure<U>(): Result<U>
      requires Failure?
    {
      Failure(error)
    }

    function Extract(): T
      requires Success?
    {
      value
    }
  }
}

=== FILE: selection.dfy ===
/** Fitness-based selection: truncation to the top individuals, elitism and tournaments. */
module Selection {
  import opened Knapsack
  import opened Sorting
  import opened Results

  /** Individual i ranks before individual j: higher fitness, or equal fitness and an
      earlier position. This is the order a stable sort on descending fitness produces. */
  predicate FitterFirst(fits: seq<int>, i: nat, j: nat) {
    i < |fits| && j < |fits| && (fits[i] > fits[j] || (fits[i] == fits[j] && i < j))
  }

  function FitnessOrder(fits: seq<int>): (nat, nat) -> bool {
    (i: nat, j: nat) => FitterFirst(fits, i, j)
  }

  lemma FitnessOrderTotal(fits: seq<int>, xs: seq<nat>)
    requires forall x :: x in xs ==> x < |fits|
    ensures TotalOn(FitnessOrder(fits), xs)
  {
  }

  /** The stable descending-fitness ranking of all positions: each position exactly once,
      ordered by non-increasing fitness with ties in input order. */
  function Ranking(fits: seq<int>): (ranked: seq<nat>)
    ensures |ranked| == |fits| && Distinct(ranked)
    ensures forall t :: 0 <= t < |ranked| ==> ranked[t] < |fits|
    ensures forall i: nat :: i < |fits| ==> i in ranked
    ensures forall a, b :: 0 <= a < b < |ranked| ==> FitterFirst(fits, ranked[a], ranked[b])
  {
    var all := Range(|fits|);
    FitnessOrderTotal(fits, all);
    SortSorted(all, FitnessOrder(fits));
    var ranked := Sort(all, FitnessOrder(fits));
    RankedByFitness(fits, ranked);
    forall t | 0 <= t < |ranked|
      ensures ranked[t] < |fits|
    {
      assert ranked[t] in all;
    }
    forall i: nat | i < |fits|
      ensures i in ranked
    {
      assert all[i] == i;
    }
    ranked
  }

  /** Sorted under the fitness order means fitter first, ties in position order. */
  lemma RankedByFitness(fits: seq<int>, xs: seq<nat>)
    requires Sorted(xs, FitnessOrder(fits))
    ensures forall a, b :: 0 <= a < b < |xs| ==> FitterFirst(fits, xs[a], xs[b])
  {
    forall a, b | 0 <= a < b < |xs|
      ensures FitterFirst(fits, xs[a], xs[b])
    {
      assert FitnessOrder(fits)(xs[a], xs[b]);
    }
  }

  /** The first k positions of the ranking: distinct positions, ordered by non-increasing
      fitness with ties in input order, and no position left out is fitter than, or ties
      ahead of, a position kept. */
  function TopIndices(fits: seq<int>, k: nat): (top: seq<nat>)
    ensures |top| == if k < |fits| then k else |fits|
    ensures Distinct(top) && forall t :: 0 <= t < |top| ==> top[t] < |fits|
    ensures forall a, b :: 0 <= a < b < |top| ==>
      fits[top[a]] > fits[top[b]] || (fits[top[a]] == fits[top[b]] && top[a] < top[b])
    ensures forall i: nat, t :: i < |fits| && i !in top && 0 <= t < |top| ==>
      fits[i] < fits[top[t]] || (fits[i] == fits[top[t]] && top[t] < i)
  {
    var ranked := Ranking(fits);
    var n := if k < |fits| then k else |fits|;
    var top := ranked[..n];
    forall i: nat, t | i < |fits| && i !in top && 0 <= t < |top|
      ensures FitterFirst(fits, top[t], i)
    {
      assert i in ranked;
      var u :| 0 <= u < |ranked| && ranked[u] == i;
      assert u >= n;
    }
    top
  }

  /** r reads pop at the distinct positions top, all below m, which come in ranking order
      and are the front of the ranking: no position below m left out ranks ahead of one
      taken. */
  predicate PicksRanked(pop: seq<Solution>, fits: seq<int>, m: nat, top: seq<nat>, r: seq<Solution>)
    requires m <= |pop| && m <= |fits|
  {
    && |top| == |r| && Distinct(top)
    && (forall t :: 0 <= t < |r| ==> top[t] < m && r[t] == pop[top[t]])
    && (forall a, b :: 0 <= a < b < |top| ==> FitterFirst(fits, top[a], top[b]))
    && (forall i: nat, t :: i < m && i !in top && 0 <= t < |top| ==> FitterFirst(fits, top[t], i))
  }

  /** select_next_generation: the pop_size fittest individuals, fittest first and ties in
      input order; a fitness list shorter than the population cuts it short, as zip does. */
  function SelectNextGeneration(pop: seq<Solution>, fits: seq<int>, popSize: nat): (r: seq<Solution>)
    ensures |r| == Min(popSize, Min(|pop|, |fits|))
    ensures forall t :: 0 <= t < |r| ==> r[t] in pop
    ensures exists top :: PicksRanked(pop, fits, Min(|pop|, |fits|), top, r)
  {
    var m := Min(|pop|, |fits|);
    var top := TopIndices(fits[..m], popSize);
    var r := seq(|top|, t requires 0 <= t < |top| => pop[top[t]]);
    TopPicksRanked(pop, fits, m, popSize, top, r);
    r
  }

  /** Ranking a prefix of the fitness list ranks those positions by the list itself. */
  lemma TopPicksRanked(pop: seq<Solution>, fits: seq<int>, m: nat, popSize: nat, top: seq<nat>, r: seq<Solution>)
    requires m <= |pop| && m <= |fits|
    requires top == TopIndices(fits[..m], popSize)
    requires |r| == |top| && forall t :: 0 <= t < |top| ==> r[t] == pop[top[t]]
    ensures PicksRanked(pop, fits, m, top, r)
  {
    var f := fits[..m];
    assert forall x :: 0 <= x < m ==> f[x] == fits[x];
    forall a, b | 0 <= a < b < |top| ensures FitterFirst(fits, top[a], top[b]) {
      assert f[top[a]] > f[top[b]] || (f[top[a]] == f[top[b]] && top[a] < top[b]);
    }
    forall i: nat, t | i < m && i !in top && 0 <= t < |top| ensures FitterFirst(fits, top[t], i) {
      assert f[i] < f[top[t]] || (f[i] == f[top[t]] && top[t] < i);
    }
  }

  function Min(a: int, b: int): int {
    if a < b then a else b
  }

  /** When every fitness is the individual's own, the selected generation is in
      non-increasing fitness order, and no individual left out is fitter than one kept. */
  lemma SelectNextByFitness(inst: Instance, pop: seq<Solution>, popSize: nat)
    requires AllFit(inst, pop)
    ensures var r := SelectNextGeneration(pop, FitnessAll(inst, pop), popSize);
      && AllFit(inst, r)
      && (forall a, b :: 0 <= a < b < |r| ==> Fitness(inst, r[a]) >= Fitness(inst, r[b]))
      && (forall i :: 0 <= i < |pop| && pop[i] !in r ==> forall t :: 0 <= t < |r| ==> Fitness(inst, pop[i]) <= Fitness(inst, r[t]))
  {
    var fits := FitnessAll(inst, pop);
    var r := SelectNextGeneration(pop, fits, popSize);
    var top :| PicksRanked(pop, fits, |pop|, top, r);
    forall a, b | 0 <= a < b < |r| ensures Fitness(inst, r[a]) >= Fitness(inst, r[b]) {
      assert FitterFirst(fits, top[a], top[b]);
    }
    forall i | 0 <= i < |pop| && pop[i] !in r
      ensures forall t :: 0 <= t < |r| ==> Fitness(inst, pop[i]) <= Fitness(inst, r[t])
    {
      assert i !in top;
      assert forall t :: 0 <= t < |r| ==> FitterFirst(fits, top[t], i);
    }
  }

  /** Position in keys of the first maximal key, as max() returns the first of equal maxima. */
  function FirstMax(keys: seq<int>): (p: nat)
    requires |keys| > 0
    ensures p < |keys|
    ensures forall k :: 0 <= k < |keys| ==> keys[k] <= keys[p]
    ensures forall k :: 0 <= k < p ==> keys[k] < keys[p]
  {
    if |keys| == 1 then 0
    else
      var q := FirstMax(keys[..|keys| - 1]);
      if keys[|keys| - 1] > keys[q] then |keys| - 1 else q
  }

  /** A draw of random.sample(range(n), size): size distinct positions below n. */
  predicate ValidSample(sample: seq<nat>, n: nat, size: nat) {
    |sample| == size && Distinct(sample) && forall k :: 0 <= k < |sample| ==> sample[k] < n
  }

  /** The winner of one tournament: the first sampled position of highest fitness. */
  function Winner(fits: seq<int>, sample: seq<nat>): (w: nat)
    requires |sample| > 0 && forall k :: 0 <= k < |sample| ==> sample[k] < |fits|
    ensures w in sample
    ensures forall k :: 0 <= k < |sample| ==> fits[sample[k]] <= fits[w]
    ensures exists p :: 0 <= p < |sample| && sample[p] == w && forall k :: 0 <= k < p ==> fits[sample[k]] < fits[w]
  {
    var keys := seq(|sample|, k requires 0 <= k < |sample| => fits[sample[k]]);
    assert forall k :: 0 <= k < |sample| ==> keys[k] == fits[sample[k]];
    var p := FirstMax(keys);
    assert forall k :: 0 <= k < p ==> fits[sample[k]] < fits[sample[p]];
    sample[p]
  }

  /** One tournament per individual, each over its own sample. Sampling more individuals
      than there are fails, and so does an empty tournament; an empty population holds
      no tournament at all. */
  function Tournament(pop: seq<Solution>, fits: seq<int>, size: nat, samples: seq<seq<nat>>): (r: Result<seq<Solution>>)
    requires |fits| >= |pop| && |samples| >= |pop|
    requires size <= |pop| ==> forall t :: 0 <= t < |pop| ==> ValidSample(samples[t], |pop|, size)
    ensures r.Success? <==> |pop| == 0 || 1 <= size <= |pop|
    ensures |pop| > 0 && size > |pop| ==> r == Failure(SampleLargerThanPopulation)
    ensures r.Success? ==> |r.value| == |pop|
    ensures r.Success? ==> forall t :: 0 <= t < |pop| ==> r.value[t] in pop
    ensures r.Success? ==> forall t :: 0 <= t < |pop| ==>
      0 < size && ValidSample(samples[t], |pop|, size) && r.value[t] == pop[Winner(fits, samples[t])]
  {
    if |pop| == 0 then Success([])
    else if size > |pop| then Failure(SampleLargerThanPopulation)
    else if size == 0 then Failure(EmptySequence)
    else
      assert forall t :: 0 <= t < |pop| ==> ValidSample(samples[t], |pop|, size);
      WinnersInRange(pop, fits, size, samples);
      var winners := seq(|pop|, t requires 0 <= t < |pop| => pop[Winner(fits, samples[t])]);
      assert forall t :: 0 <= t < |pop| ==> winners[t] == pop[Winner(fits, samples[t])];
      Success(winners)
  }

  lemma WinnersInRange(pop: seq<Solution>, fits: seq<int>, size: nat, samples: seq<seq<nat>>)
    requires |fits| >= |pop| && |samples| >= |pop| && 0 < size <= |pop|
    requires forall t :: 0 <= t < |pop| ==> ValidSample(samples[t], |pop|, size)
    ensures forall t :: 0 <= t < |pop| ==> ValidSample(samples[t], |pop|, size) && Winner(fits, samples[t]) < |pop|
  {
    forall t | 0 <= t < |pop|
      ensures Winner(fits, samples[t]) < |pop|
    {
      var w := Winner(fits, samples[t]);
      var k :| 0 <= k < |samples[t]| && samples[t][k] == w;
    }
  }
}

=== FILE: sorting.dfy ===
/** Insertion sort of item indices under a strict total order, shared by the repair
    operator (ascending value/weight ratio, then index) and by truncation selection and
    elitism (descending fitness, then index, which is what a stable sort yields). */
module Sorting {

  /** Every index in xs occurs once. */
  predicate Distinct(xs: seq<nat>) {
    forall a, b :: 0 <= a < b < |xs| ==> xs[a] != xs[b]
  }

  /** Every earlier element is strictly before every later one. */
  ghost predicate Sorted(xs: seq<nat>, lt: (nat, nat) -> bool) {
    forall a, b :: 0 <= a < b < |xs| ==> lt(xs[a], xs[b])
  }

  /** lt is a strict total order on the elements of xs. */
  ghost predicate TotalOn(lt: (nat, nat) -> bool, xs: seq<nat>) {
    && (forall x :: x in xs ==> !lt(x, x))
    && (forall x, y :: x in xs && y in xs && x != y ==> lt(x, y) || lt(y, x))
    && (forall x, y, z :: x in xs && y in xs && z in xs && lt(x, y) && lt(y, z) ==> lt(x, z))
  }

  /** The indices 0 .. n-1 in increasing order. */
  function Range(n: nat): (r: seq<nat>)
    ensures |r| == n && Distinct(r)
    ensures forall k :: 0 <= k < n ==> r[k] == k
  {
    seq(n, k requires 0 <= k => k)
  }

  /** Places x in front of the first element it is strictly before. */
  function Insert(x: nat, xs: seq<nat>, lt: (nat, nat) -> bool): (r: seq<nat>)
    ensures multiset(r) == multiset(xs) + multiset{x}
  {
    if |xs| == 0 || lt(x, xs[0]) then [x] + xs
    else
      assert xs == [xs[0]] + xs[1..];
      [xs[0]] + Insert(x, xs[1..], lt)
  }

  function Sort(xs: seq<nat>, lt: (nat, nat) -> bool): (r: seq<nat>)
    ensures multiset(r) == multiset(xs)
  {
    if |xs| == 0 then []
    else
      assert xs == [xs[0]] + xs[1..];
      Insert(xs[0], Sort(xs[1..], lt), lt)
  }

  /** Putting in front of a sorted sequence an element before all of its elements keeps it
      sorted. */
  lemma ConsSorted(x: nat, xs: seq<nat>, lt: (nat, nat) -> bool)
    requires Sorted(xs, lt)
    requires forall y :: y in xs ==> lt(x, y)
    ensures Sorted([x] + xs, lt)
  {
    var r := [x] + xs;
    forall a, b | 0 <= a < b < |r|
      ensures lt(r[a], r[b])
    {
      if a == 0 {
        assert r[b] == xs[b - 1];
      }
    }
  }

  lemma {:induction false} InsertSorted(x: nat, xs: seq<nat>, lt: (nat, nat) -> bool)
    requires Sorted(xs, lt) && x !in xs && TotalOn(lt, [x] + xs)
    ensures Sorted(Insert(x, xs, lt), lt)
  {
    if |xs| == 0 || lt(x, xs[0]) {
      forall y | y in xs
        ensures lt(x, y)
      {
        var k :| 0 <= k < |xs| && xs[k] == y;
        if k > 0 {
          assert xs[0] in [x] + xs && y in [x] + xs;
          assert lt(xs[0], y);
        }
      }
      ConsSorted(x, xs, lt);
    } else {
      var tail := xs[1..];
      assert forall y :: y in [x] + tail ==> y in [x] + xs;
      InsertSorted(x, tail, lt);
      var ins := Insert(x, tail, lt);
      assert x in [x] + xs && xs[0] in [x] + xs;
      assert lt(xs[0], x);
      forall y | y in ins
        ensures lt(xs[0], y)
      {
        assert y in multiset(ins);
        if y != x {
          assert y in multiset(tail);
          var k :| 0 <= k < |tail| && tail[k] == y;
          assert xs[k + 1] == y;
        }
      }
      ConsSorted(xs[0], ins, lt);
    }
  }

  /** The sort returns a sorted permutation of its input. */
  lemma {:induction false} SortSorted(xs: seq<nat>, lt: (nat, nat) -> bool)
    requires Distinct(xs) && TotalOn(lt, xs)
    ensures Sorted(Sort(xs, lt), lt)
    ensures Distinct(Sort(xs, lt)) && |Sort(xs, lt)| == |xs|
    ensures forall y :: y in Sort(xs, lt) <==> y in xs
  {
    var r := Sort(xs, lt);
    assert |r| == |multiset(r)| == |multiset(xs)| == |xs|;
    forall y
      ensures y in r <==> y in xs
    {
      assert y in r <==> y in multiset(r);
      assert y in xs <==> y in multiset(xs);
    }
    if |xs| > 0 {
      var tail := xs[1..];
      assert forall y :: y in tail ==> y in xs;
      SortSorted(tail, lt);
      var st := Sort(tail, lt);
      assert xs[0] !in tail;
      assert forall y :: y in [xs[0]] + st ==> y in xs;
      InsertSorted(xs[0], st, lt);
    }
    SortedIsDistinct(r, lt, xs);
  }

  /** A sequence sorted under an order that is total on its elements holds no repeats. */
  lemma SortedIsDistinct(r: seq<nat>, lt: (nat, nat) -> bool, xs: seq<nat>)
    requires Sorted(r, lt) && (forall y :: y in r ==> y in xs)
    requires forall y :: y in xs ==> !lt(y, y)
    ensures Distinct(r)
  {
  }
}
